=== FILE: README.md ===
# Circular buffer, modelled in Dafny

This project models `CircularBuffer` from `circular-buffer.js`. It is a
fixed-capacity ring buffer with these parts:

- `bufferMaxLength` slots, each starting out `null`;
- a read cursor `head` and a write cursor `tail`;
- a `size` counter, which alone decides whether the buffer is full or empty.

It has four operations: a strict `write`, `read`, an overwriting `forceWrite`,
and `clear`. Failures are thrown as `BufferFullError` and `BufferEmptyError`.

The model is functional:

- A buffer is an immutable `Buffer` record. `null` slots are `None`.
- Each operation is a pure function from the old record to the new one.
- A thrown error becomes the `Err` case of a `Result`, with the two error
  kinds as two constructors.
- `Trace.Run` replays a sequence of calls. A failing call reports `Failed` and
  leaves the buffer as it was, the same way `circular-buffer.js` throws
  before it mutates anything.

Modules:

- `CircularBuffer` (`circular_buffer.dfy`): the record, the bounds predicate
  `Valid`, and the operations `New`, `Write`, `Read`, `ForceWrite` and `Clear`,
  each with a contract stating its effect cell by cell.
- `BoundedQueue` (`bounded_queue.dfy`): the reference the buffer is measured
  against. It is a plain FIFO queue of at most `cap` items, with `Push`, `Pop`
  and the evicting `PushEvict`.
- `QueueView` (`queue_view.dfy`): the abstraction relation `Represents(b, q)`.
  Reading the slots round the ring from `head` gives the items of `q` and then
  nulls only, and `tail == (head + size) % cap`, which is the cursor relation.
- `Refinement` (`refinement.dfy`): proves that each operation, on a buffer that
  represents `q`, does what the queue does. It also shows that `clear` keeps the
  representation only when the cursors already coincide, and that the number
  of non-null cells equals `size` while the buffer represents a queue.
- `Trace` (`trace.dfy`): whole call sequences. The cursor relation holds on
  every trace without `clear`. On such traces the buffer reports exactly the
  events the bounded queue reports, which is first-in, first-out order.
- `Scenarios` (`scenarios.dfy`): the call sequences of `circular-buffer.spec.js`
  replayed one stretch at a time, with the slot layouts and returned items the
  tests expect. Most tests use one-character strings as items; here they are
  characters. The full-buffer test (circular-buffer.spec.js:65-74) writes the
  numbers 1, 2 and 3, and its model uses those integers as written. The
  ten-item test writes the strings `'1'` to `'10'`; its model uses the
  integers 1 to 10.

### Behaviour after `clear`

`clear` sets `size` to 0 and nulls every slot, but it does not move `head` or
`tail` (circular-buffer.js:55-58). The model keeps this behaviour:

- Later writes resume at the old `tail` (`Trace.ClearThenWrites`).
- The cursor relation is not restored (`Refinement.ClearRepresentsEmptyIff`).
- After a clear, `read` serves from the old `head`. So it can return a newer
  item before an older one. It can also return `null` while `size` is still
  positive (`Scenarios.ReadsAfterClearStartAtOldHead`).

A FIFO ring buffer is expected to return the oldest item from `read` and to
have exactly `size` occupied cells. This code keeps both on every trace in
which each clear finds the cursors together, and the model follows the code.
That includes traces with no clear, and any clear of an empty or a full
buffer (`Refinement.ClearOnEmptyOrFullRepresentsEmpty`,
`Trace.RunRefinesQueueClearingEmptyOrFull`). A clear with the cursors apart
breaks both. For example, after such a clear a write followed by a read
returns `null` instead of the written item
(`Trace.WriteThenReadAfterClearApart`).

The code does not check the capacity itself. `New` therefore requires
`0 < cap < 2^32`, which are exactly the integer capacities for which the code
builds a usable buffer (see "## Left out").

## Model

| member | source | states |
|---|---|---|
| `CircularBuffer.New` | circular-buffer.js:14-17 | For a capacity from 1 to 2^32 - 1, the range in which the code's array allocation succeeds and the buffer is usable, a fresh buffer keeps every bound, is empty and not full, has both cursors at 0, and has every slot null. |
| `CircularBuffer.Write` | circular-buffer.js:19-27 | Fails with `BufferFullError` exactly when `size` has reached the capacity. Otherwise it puts the item in the `tail` cell and leaves every other cell alone. `tail` advances with wrap-around, `size` grows by one, `head` is unchanged, and the bounds still hold. |
| `CircularBuffer.Read` | circular-buffer.js:29-39 | Fails with `BufferEmptyError` exactly when `size` is 0. Otherwise it returns the old content of the `head` cell and nulls that cell, leaving the other cells alone. `head` advances with wrap-around, `size` drops by one, `tail` is unchanged, and the bounds still hold. |
| `CircularBuffer.ForceWrite` | circular-buffer.js:41-53 | If the buffer is not full, the result is exactly what a strict write gives. If it is full, the item overwrites the `head` cell, both cursors advance with wrap-around, and the buffer stays full. |
| `CircularBuffer.Clear` | circular-buffer.js:55-58 | Every slot becomes null and `size` becomes 0. `head`, `tail` and the capacity are kept. |
| `CircularBuffer.IsEmpty` | circular-buffer.js:60-62 | Emptiness is decided by the count alone, and a buffer within its bounds is never empty and full at once. |
| `CircularBuffer.IsFull` | circular-buffer.js:64-66 | Fullness is decided by the count alone. Within the bounds, the code's test `size >= bufferMaxLength` holds exactly when `size == cap`, which is the condition on which a strict write fails. |
| `Refinement.NewRepresentsEmpty` | circular-buffer.js:14-17 | A fresh buffer represents the empty queue. |
| `Refinement.WriteAppendsAt` | circular-buffer.js:19-27 | Say the cells from some anchor hold `q` and `tail` sits just past them. Then a strict write succeeds exactly when `q` is shorter than the capacity, and afterwards those cells hold `q + [x]`. This holds whatever `head` is. |
| `Refinement.WriteRefinesPush` | circular-buffer.js:19-27 | On a buffer representing `q`, a strict write fails exactly when the queue's push fails, with the same error. Otherwise the result represents `q + [x]`. |
| `Refinement.ReadRefinesPop` | circular-buffer.js:29-39 | On a buffer representing `q`, a read fails exactly when `q` is empty, with the same error. Otherwise it returns the oldest item of `q` (never a null), and the rest of `q` stays represented. |
| `Refinement.ForceWriteRefinesPushEvict` | circular-buffer.js:41-53 | On a buffer representing `q`, a force-write gives the queue's evicting push: `q + [x]` if there is room, and otherwise `q` without its oldest item, plus `x`. |
| `Refinement.ClearRepresentsEmptyIff` | circular-buffer.js:55-58 | A cleared buffer represents the empty queue if and only if its cursors already coincided. Because `clear` leaves the cursors alone, it does not restore the cursor relation in general. |
| `Refinement.ClearOnEmptyOrFullRepresentsEmpty` | circular-buffer.js:55-58 | A clear of a buffer that represents an empty or a full queue finds `head == tail`, so the cleared buffer represents the empty queue. |
| `Refinement.ClearPlacesAtTail` | circular-buffer.js:55-58 | After a clear, the cells read from the old `tail` are all null, so that is where the next write lands. |
| `Refinement.OccupiedIsSize` | circular-buffer.js:19-53 | While a buffer represents a queue, exactly `size` of its cells are non-null. |
| `Trace.Step` | circular-buffer.js:19-58 | A single call fails exactly on a strict write to a full buffer or a read from an empty one. A failing call leaves the buffer unchanged, and every call keeps the bounds. |
| `Trace.Run` | circular-buffer.js:14-58 | Any call sequence, clears included, reports one event per call and keeps the bounds: `0 <= size <= cap`, both cursors are valid cells, and there are `cap` slots. |
| `Trace.StepRefinesQueue` | circular-buffer.js:19-53 | Any call other than `clear` reports what the bounded queue reports and keeps the representation. |
| `Trace.RunRefinesQueue` | circular-buffer.js:19-53 | On every trace without a clear, a buffer representing `q` reports exactly the events of the bounded queue started from `q`, and it ends up representing the queue's final contents. This is FIFO order. |
| `Trace.RunRefinesQueueClearingEmptyOrFull` | circular-buffer.js:19-58 | Take any trace in which every clear comes when the queue is empty or full. A buffer representing `q` reports exactly the bounded queue's events, where a clear empties the queue. It ends up representing the queue's final contents. |
| `Trace.StepKeepsCursorRelation` | circular-buffer.js:19-53 | Write, read and force-write each keep `tail == (head + size) % cap`. |
| `Trace.CursorRelationInvariant` | circular-buffer.js:19-53 | The cursor relation holds after every trace without a clear. |
| `Trace.FillThenDrain` | circular-buffer.spec.js:26-41 | Up to `cap` writes into a fresh buffer, then as many reads, return the items in the order written and leave the buffer empty. |
| `Trace.WritesAppendAt` | circular-buffer.js:19-27 | Writes that fit lay their items out in order from a fixed anchor cell and never move `head`. |
| `Trace.ClearThenWrites` | circular-buffer.js:55-58 | After a clear, writes place their items from the old `tail` onward, while `head` stays where it was. |
| `Trace.WriteThenRead` | circular-buffer.js:19-38 | On an empty buffer whose cursors coincide, reading right after a write returns the written item and leaves the buffer empty with its cursors together again. |
| `Trace.WriteThenReadAfterClearApart` | circular-buffer.js:19-39 | Take any buffer whose cursors are apart and clear it. A write then a read returns `null`, not the written item. The buffer ends up empty, and the item sits in the old `tail` cell. The write-then-read round trip therefore needs coinciding cursors. |
| `Trace.FillFreshLaysOutInOrder` | circular-buffer.spec.js:26-36 | Writes into a fresh buffer fill cells from 0 in the order written, and the remaining cells stay null. |
| `Scenarios.ReadFreshFails` | circular-buffer.spec.js:7-13 | Reading a fresh buffer of ten slots fails with `BufferEmptyError`. |
| `Scenarios.ReadJustWritten` | circular-buffer.spec.js:15-24 | With capacity 1, the item just written is the item read. |
| `Scenarios.FillTenInOrder` | circular-buffer.spec.js:26-36 | With capacity 10, writing 1 to 10 gives the slots 1 to 10 in order. |
| `Scenarios.FillTenThenReadInOrder` | circular-buffer.spec.js:26-41 | With capacity 10, the ten reads after the ten writes return 1 to 10 in order. |
| `Scenarios.FillThree` | circular-buffer.spec.js:65-70 | With capacity 3, three writes fill the buffer. |
| `Scenarios.WriteToFullFails` | circular-buffer.spec.js:65-74 | A fourth strict write then fails with `BufferFullError` and the buffer is unchanged. |
| `Scenarios.ClearAfterThreeWrites` | circular-buffer.spec.js:43-48 | Three writes and a clear leave all seven slots null and the count at 0, with `tail` still at cell 3. |
| `Scenarios.WritesResumeAtOldTail` | circular-buffer.spec.js:43-52 | Three writes after that clear give the layout null, null, null, 1, 2, 3, null. |
| `Scenarios.WritesAfterClearToEnd` | circular-buffer.spec.js:54-59 | After the same clear, writing 4, 5 and 6 fills cells 3 to 5. |
| `Scenarios.WritesAfterClearWrap` | circular-buffer.spec.js:54-63 | Then writing 7, 8 and 9 wraps round, giving the layout 8, 9, null, 4, 5, 6, 7. |
| `Scenarios.ReadsAfterClearStartAtOldHead` | circular-buffer.js:29-39 | From that layout, three reads return 8, 9 and then null. The oldest item, 4, is not returned first. Afterwards `size` is 3 while four cells are non-null. |
| `Scenarios.FillThreeLetters` | circular-buffer.spec.js:76-83 | With capacity 3, writing A, B and C fills the buffer. |
| `Scenarios.ReadTwiceThenWriteWraps` | circular-buffer.spec.js:85-91 | Two reads then return A and B, and writing D and E gives the layout D, E, C. |
| `Scenarios.WriteFourOfSeven` | circular-buffer.spec.js:94-99 | With capacity 7, four strict writes fill cells 0 to 3. |
| `Scenarios.ForceWriteWithRoom` | circular-buffer.spec.js:94-105 | A further write and two force-writes with room act as strict writes, giving the layout 7, 8, 9, A, B, C, D. |
| `Scenarios.OverwriteSetupFirstWrites` | circular-buffer.spec.js:108-113 | With capacity 7, four writes fill cells 0 to 3. |
| `Scenarios.OverwriteSetupFill` | circular-buffer.spec.js:108-113 | Three more writes fill the buffer. |
| `Scenarios.OverwriteSetupDrain` | circular-buffer.spec.js:114 | Four reads move `head` to cell 4. |
| `Scenarios.OverwriteSetupRefill` | circular-buffer.spec.js:115-118 | Four writes wrap round and fill the buffer again, giving the layout 6, 7, 8, 9, 3, 4, 5. |
| `Scenarios.ForceWriteOnFullEvictsOldest` | circular-buffer.spec.js:120-123 | On the full buffer, two force-writes overwrite the two oldest items, giving the layout 6, 7, 8, 9, A, B, 5. |
| `Scenarios.ReadAfterOverwrite` | circular-buffer.spec.js:125-128 | Two reads return 5 and 6, giving the layout null, 7, 8, 9, A, B, null. |
| `Scenarios.ForceWriteRefillsFreedCells` | circular-buffer.spec.js:130-133 | Two force-writes with room fill cells 6 and 0, giving the layout D, 7, 8, 9, A, B, C. |

## Left out

- The `name` and `message` strings of the two error classes
  (circular-buffer.js:71-85) are left out, because they are presentation
  only. The errors are the two constructors of `BufferError`. At line 82 the
  empty-buffer error's `name` is `"BufferFullError"`; the model does not
  carry names, so this slip is not modelled.
- CircularBuffer.New: every capacity the code refuses or mishandles is left
  out, and `New` requires `0 < cap < 2^32` (`ArrayLengthLimit`). The code
  does no check of its own, and it behaves as follows:
  - `Array(bufferLength)` (circular-buffer.js:16) throws a `RangeError` for
    any value that is not an integer from 0 to 2^32 - 1. That covers negative
    capacities, capacities of 2^32 or more, and non-integers such as 2.5.
    The model's `cap` is an `int`, so non-integer capacities cannot even be
    stated.
  - A zero capacity builds a buffer on which `write` always throws
    `BufferFullError`, because `0 >= 0` (circular-buffer.js:65), and `read`
    always throws `BufferEmptyError`.
  - On a zero-capacity buffer, `forceWrite` takes the full branch and sets
    `head` and `tail` to `NaN` through `% 0` (circular-buffer.js:51-52).
- JavaScript storage details are left out: `Array(n).fill(null)` and the
  re-allocation by `map` in `clear`. Slots are `Option<T>`, and a cleared
  buffer gets a fresh all-`None` sequence.
- `null` and `undefined` items are left out. In the code, `write(null)` or
  `write()` stores that value in the same array that marks empty cells with
  `null` (circular-buffer.js:16, 25, 35, 57). Such an item is then hard to
  tell apart from an empty cell. For example, `new CircularBuffer(3).write(null)`
  gives `size == 1` with no non-null cell, and the next `read()` returns
  `null`. The model separates the two on purpose: an item is always
  `Some(x)` and an empty cell is `None`. So `Refinement.OccupiedIsSize`, and
  `Represents` in general, hold of the model but not of the code when the
  items written are `null` or `undefined`. The test's `write()` with no
  argument is modelled as a write of the value 0.
- Mutation in place is left out. Each operation returns a new record, and a
  failing operation returns an error instead of throwing.
- The Jest harness and `expect` are left out. The test scenarios are stated
  as lemmas about `Trace.Run`.
- Concurrency is left out, because the JavaScript class has none.

=== FILE: bounded_queue.dfy ===
/**
 * The reference the ring buffer is measured against: a plain first-in
 * first-out queue of at most `cap` items, kept as a sequence whose first
 * element is the oldest item.  It knows nothing of slots or cursors.
 */
module BoundedQueue {
  import opened CircularBuffer

  /** Appends `x`, or refuses when `cap` items are already queued. */
  function Push<T>(q: seq<T>, cap: int, x: T): (r: Result<seq<T>>)
    ensures r.Err? <==> |q| >= cap
    ensures r.Err? ==> r.error == BufferFullError
    ensures r.Ok? ==> |r.value| == |q| + 1 && r.value[..|q|] == q && r.value[|q|] == x
  {
    if |q| >= cap then Err(BufferFullError) else Ok(q + [x])
  }

  /** Removes and returns the oldest item, or refuses on an empty queue. */
  function Pop<T>(q: seq<T>): (r: Result<(T, seq<T>)>)
    ensures r.Err? <==> q == []
    ensures r.Err? ==> r.error == BufferEmptyError
    ensures r.Ok? ==> [r.value.0] + r.value.1 == q
  {
    if |q| == 0 then Err(BufferEmptyError) else Ok((q[0], q[1..]))
  }

  /**
   * Appends `x`, first dropping the oldest item when `cap` items are already
   * queued: the queue keeps the `cap` most recent items.
   */
  function PushEvict<T>(q: seq<T>, cap: int, x: T): (r: seq<T>)
    requires 0 < cap && |q| <= cap
    ensures |r| == if |q| < cap then |q| + 1 else cap
    ensures r[|r| - 1] == x
    ensures r[..|r| - 1] == q[|q| + 1 - |r|..]
  {
    if |q| < cap then q + [x] else q[1..] + [x]
  }
}

=== FILE: circular_buffer.dfy ===
/**
 * A fixed-capacity ring buffer with a strict write, a read, an overwriting
 * force-write and a clear.  The buffer is an immutable record; every
 * operation is a pure function from the old record to the new one, and the
 * two failure kinds of the JavaScript class in `circular-buffer.js` are the constructors of
 * `BufferError` carried by a `Result` instead of thrown exceptions.
 */
module CircularBuffer {

  /** One slot of the buffer: `None` is the null the JavaScript class stores in an empty cell. */
  datatype Option<+T> = None | Some(value: T)

  /** The two failures: a strict write to a full buffer, a read from an empty one. */
  datatype BufferError = BufferFullError | BufferEmptyError

  datatype Result<+R> = Ok(value: R) | Err(error: BufferError)

  /**
   * The state of one buffer.  `slots` holds `cap` cells, `head` is the read
   * cursor, `tail` the write cursor and `size` the number of items counted as
   * present; `size` alone decides fullness and emptiness.
   */
  datatype Buffer<T> = Buffer(slots: seq<Option<T>>, head: int, tail: int, size: int, cap: int)

  /** The bounds every reachable buffer keeps. */
  predicate Valid<T>(b: Buffer<T>)
  {
    && b.cap > 0
    && |b.slots| == b.cap
    && 0 <= b.head < b.cap
    && 0 <= b.tail < b.cap
    && 0 <= b.size <= b.cap
  }

  /** No item is counted as present; an empty buffer is never also full. */
  predicate IsEmpty<T>(b: Buffer<T>)
    ensures Valid(b) && IsEmpty(b) ==> !IsFull(b)
  {
    b.size == 0
  }

  /** The count has reached the capacity; within the bounds the test `>=` can only meet `==`. */
  predicate IsFull<T>(b: Buffer<T>)
    ensures Valid(b) ==> (IsFull(b) <==> b.size == b.cap)
  {
    b.size >= b.cap
  }

  /** Moves a cursor one cell forward, wrapping from the last cell to the first. */
  function Advance(i: int, cap: int): (j: int)
    requires 0 <= i < cap
    ensures 0 <= j < cap
    ensures j == if i + 1 == cap then 0 else i + 1
  {
    (i + 1) % cap
  }

  /** One more than the largest length a JavaScript array can have. */
  const ArrayLengthLimit: int := 0x1_0000_0000

  /** The constructor: `cap` null slots and both cursors at 0. */
  function New<T>(cap: int): (b: Buffer<T>)
    requires 0 < cap < ArrayLengthLimit
    ensures Valid(b) && b.cap == cap
    ensures IsEmpty(b) && !IsFull(b)
    ensures b.head == 0 && b.tail == 0
    ensures forall i :: 0 <= i < cap ==> b.slots[i].None?
  {
    Buffer(seq(cap, _ => None), 0, 0, 0, cap)
  }

  /**
   * Strict write: fails on a full buffer, otherwise stores `x` at the write
   * cursor, advances it and counts one more item.
   */
  function Write<T>(b: Buffer<T>, x: T): (r: Result<Buffer<T>>)
    requires Valid(b)
    ensures r.Err? <==> b.size == b.cap
    ensures r.Err? ==> r.error == BufferFullError
    ensures r.Ok? ==>
              && Valid(r.value)
              && r.value.cap == b.cap
              && r.value.slots[b.tail] == Some(x)
              && (forall i :: 0 <= i < b.cap && i != b.tail ==> r.value.slots[i] == b.slots[i])
              && r.value.tail == (if b.tail + 1 == b.cap then 0 else b.tail + 1)
              && r.value.head == b.head
              && r.value.size == b.size + 1
  {
    if IsFull(b) then
      Err(BufferFullError)
    else
      Ok(b.(size := b.size + 1,
             slots := b.slots[b.tail := Some(x)],
             tail := Advance(b.tail, b.cap)))
  }

  /**
   * Read: fails on an empty buffer, otherwise hands back whatever the slot
   * under the read cursor holds, nulls that slot, advances the read cursor
   * and counts one item fewer.
   */
  function Read<T>(b: Buffer<T>): (r: Result<(Option<T>, Buffer<T>)>)
    requires Valid(b)
    ensures r.Err? <==> b.size == 0
    ensures r.Err? ==> r.error == BufferEmptyError
    ensures r.Ok? ==>
              && Valid(r.value.1)
              && r.value.1.cap == b.cap
              && r.value.0 == b.slots[b.head]
              && r.value.1.slots[b.head].None?
              && (forall i :: 0 <= i < b.cap && i != b.head ==> r.value.1.slots[i] == b.slots[i])
              && r.value.1.head == (if b.head + 1 == b.cap then 0 else b.head + 1)
              && r.value.1.tail == b.tail
              && r.value.1.size == b.size - 1
  {
    if IsEmpty(b) then
      Err(BufferEmptyError)
    else
      var item := b.slots[b.head];
      Ok((item, b.(slots := b.slots[b.head := None],
                   head := Advance(b.head, b.cap),
                   size := b.size - 1)))
  }

  /**
   * Overwriting write: on a buffer with room it is a strict write; on a full
   * buffer it stores `x` over the slot under the read cursor and advances both
   * cursors, so the buffer stays full.
   */
  function ForceWrite<T>(b: Buffer<T>, x: T): (r: Buffer<T>)
    requires Valid(b)
    ensures Valid(r) && r.cap == b.cap
    ensures b.size < b.cap ==> Write(b, x) == Ok(r)
    ensures b.size == b.cap ==>
              && r.slots[b.head] == Some(x)
              && (forall i :: 0 <= i < b.cap && i != b.head ==> r.slots[i] == b.slots[i])
              && r.head == (if b.head + 1 == b.cap then 0 else b.head + 1)
              && r.tail == (if b.tail + 1 == b.cap then 0 else b.tail + 1)
              && r.size == b.cap && IsFull(r)
  {
    if !IsFull(b) then
      b.(size := b.size + 1,
         slots := b.slots[b.tail := Some(x)],
         tail := Advance(b.tail, b.cap))
    else
      b.(slots := b.slots[b.head := Some(x)],
         head := Advance(b.head, b.cap),
         tail := Advance(b.tail, b.cap))
  }

  /**
   * Clear: no item is counted and every slot is null, but both cursors stay
   * where they were, so the next write lands at the old write cursor.
   */
  function Clear<T>(b: Buffer<T>): (r: Buffer<T>)
    requires Valid(b)
    ensures Valid(r) && r.cap == b.cap
    ensures IsEmpty(r)
    ensures forall i :: 0 <= i < r.cap ==> r.slots[i].None?
    ensures r.head == b.head && r.tail == b.tail
  {
    b.(size := 0, slots := seq(b.cap, _ => None))
  }
}

=== FILE: queue_view.dfy ===
/**
 * How a ring buffer stands for a queue.  Reading the slots round the ring
 * from the read cursor must show the queued items, oldest first, followed by
 * nulls, and the write cursor must sit just past the last item.  Under that
 * relation strict write, read and force-write are exactly the bounded queue's
 * push, pop and evicting push.
 */
module QueueView {
  import opened CircularBuffer
  import opened BoundedQueue

  /** The slots read round the ring, starting at cell `start`. */
  function RotFrom<T>(slots: seq<Option<T>>, start: int): (r: seq<Option<T>>)
    requires 0 <= start < |slots|
    ensures |r| == |slots|
  {
    seq(|slots|, k requires 0 <= k < |slots| => slots[(start + k) % |slots|])
  }

  function Somes<T>(q: seq<T>): (r: seq<Option<T>>)
    ensures |r| == |q|
  {
    seq(|q|, i requires 0 <= i < |q| => Some(q[i]))
  }

  function Nones<T>(n: nat): (r: seq<Option<T>>)
    ensures |r| == n
  {
    seq(n, _ => None)
  }

  /** Going round the ring from `start`, the cells hold `q` and then nulls only. */
  ghost predicate Placed<T>(slots: seq<Option<T>>, start: int, q: seq<T>)
    requires 0 <= start < |slots|
  {
    |q| <= |slots| && RotFrom(slots, start) == Somes(q) + Nones(|slots| - |q|)
  }

  /** The write cursor sits `size` cells after the read cursor. */
  predicate CursorRelation<T>(b: Buffer<T>)
    requires Valid(b)
  {
    b.tail == (b.head + b.size) % b.cap
  }

  /** `b` holds exactly the queue `q`, oldest item under the read cursor. */
  ghost predicate Represents<T>(b: Buffer<T>, q: seq<T>)
  {
    && Valid(b)
    && b.size == |q|
    && CursorRelation(b)
    && Placed(b.slots, b.head, q)
  }

  lemma ModSmall(x: int, m: int)
    requires 0 < m && 0 <= x < 2 * m
    ensures x % m == if x < m then x else x - m
  {
  }

  /** Appending one item writes the first null cell after the placed items. */
  lemma {:induction false} PlaceAppend<T>(slots: seq<Option<T>>, start: int, q: seq<T>, x: T)
    requires 0 <= start < |slots| && |q| < |slots|
    requires Placed(slots, start, q)
    ensures Placed(slots[(start + |q|) % |slots| := Some(x)], start, q + [x])
  {
    var n := |slots|;
    var t := (start + |q|) % n;
    var s' := slots[t := Some(x)];
    var want := Somes(q + [x]) + Nones(n - |q| - 1);
    var old_rot := RotFrom(slots, start);
    forall k | 0 <= k < n
      ensures RotFrom(s', start)[k] == want[k]
    {
      ModSmall(start + k, n);
      ModSmall(start + |q|, n);
      if k != |q| {
        assert old_rot[k] == (Somes(q) + Nones(n - |q|))[k];
      }
    }
    assert RotFrom(s', start) == want;
  }

  /** Reading nulls the cell at `start`; the rest is placed one cell further on. */
  lemma {:induction false} PlaceDropFront<T>(slots: seq<Option<T>>, start: int, q: seq<T>, v: Option<T>)
    requires 0 <= start < |slots| && 0 < |q|
    requires Placed(slots, start, q)
    requires v.None? || |q| == |slots|
    ensures v.None? ==> Placed(slots[start := v], (start + 1) % |slots|, q[1..])
    ensures v.Some? ==> Placed(slots[start := v], (start + 1) % |slots|, q[1..] + [v.value])
  {
    var n := |slots|;
    var s' := slots[start := v];
    var start' := (start + 1) % n;
    ModSmall(start + 1, n);
    var old_rot := RotFrom(slots, start);
    var old_want := Somes(q) + Nones(n - |q|);
    var want := if v.None? then Somes(q[1..]) + Nones(n - |q| + 1)
                else Somes(q[1..] + [v.value]) + Nones(n - |q|);
    forall k | 0 <= k < n
      ensures RotFrom(s', start')[k] == want[k]
    {
      ModSmall(start' + k, n);
      ModSmall(start + k + 1, n);
      if k < n - 1 {
        assert old_rot[k + 1] == old_want[k + 1];
      }
    }
    assert RotFrom(s', start') == want;
  }
}

=== FILE: refinement.dfy ===
/**
 * Each buffer operation against the bounded queue it stands for: a buffer
 * that represents `q` fails exactly when the queue operation fails, and
 * otherwise represents the queue the operation produces.  Clear is the one
 * operation that does not keep the representation in general.
 */
module Refinement {
  import opened CircularBuffer
  import opened BoundedQueue
  import opened QueueView

  /** A fresh buffer represents the empty queue. */
  lemma NewRepresentsEmpty<T>(cap: int)
    requires 0 < cap < ArrayLengthLimit
    ensures Represents(New<T>(cap), [])
  {
    var b := New<T>(cap);
    var want := Somes<T>([]) + Nones(cap);
    forall k | 0 <= k < cap
      ensures RotFrom(b.slots, 0)[k] == want[k]
    {
      ModSmall(k, cap);
    }
    assert RotFrom(b.slots, 0) == want;
  }

  /**
   * A strict write appends at the write cursor whatever the read cursor says:
   * if the cells from `start` hold `q` and the write cursor is just past them,
   * the write succeeds exactly when `q` is shorter than the capacity, and the
   * cells from `start` then hold `q + [x]`.
   */
  lemma WriteAppendsAt<T>(b: Buffer<T>, start: int, q: seq<T>, x: T)
    requires Valid(b) && 0 <= start < b.cap
    requires b.size == |q| && Placed(b.slots, start, q)
    requires b.tail == (start + |q|) % b.cap
    ensures Write(b, x).Ok? <==> |q| < b.cap
    ensures Write(b, x).Ok? ==>
              && Placed(Write(b, x).value.slots, start, q + [x])
              && Write(b, x).value.size == |q + [x]|
              && Write(b, x).value.tail == (start + |q + [x]|) % b.cap
  {
    if |q| < b.cap {
      PlaceAppend(b.slots, start, q, x);
      ModSmall(start + |q|, b.cap);
      ModSmall(start + |q| + 1, b.cap);
    }
  }

  /** A strict write is the queue's push. */
  lemma WriteRefinesPush<T>(b: Buffer<T>, q: seq<T>, x: T)
    requires Represents(b, q)
    ensures Write(b, x).Err? <==> Push(q, b.cap, x).Err?
    ensures Write(b, x).Err? ==> Write(b, x).error == Push(q, b.cap, x).error
    ensures Write(b, x).Ok? ==> Represents(Write(b, x).value, Push(q, b.cap, x).value)
  {
    WriteAppendsAt(b, b.head, q, x);
  }

  /** A read returns the oldest item (never a null) and leaves the rest queued. */
  lemma ReadRefinesPop<T>(b: Buffer<T>, q: seq<T>)
    requires Represents(b, q)
    ensures Read(b).Err? <==> Pop(q).Err?
    ensures Read(b).Err? ==> Read(b).error == Pop(q).error
    ensures Read(b).Ok? ==>
              && Read(b).value.0 == Some(Pop(q).value.0)
              && Represents(Read(b).value.1, Pop(q).value.1)
  {
    if |q| > 0 {
      assert RotFrom(b.slots, b.head)[0] == (Somes(q) + Nones(b.cap - |q|))[0];
      ModSmall(b.head, b.cap);
      PlaceDropFront(b.slots, b.head, q, None);
      ModSmall(b.head + 1, b.cap);
      ModSmall(b.head + b.size, b.cap);
      ModSmall((b.head + 1) % b.cap + b.size - 1, b.cap);
    }
  }

  /** A force-write is the queue's evicting push: on a full buffer the oldest item goes. */
  lemma ForceWriteRefinesPushEvict<T>(b: Buffer<T>, q: seq<T>, x: T)
    requires Represents(b, q)
    ensures Represents(ForceWrite(b, x), PushEvict(q, b.cap, x))
  {
    if |q| < b.cap {
      WriteRefinesPush(b, q, x);
    } else {
      ModSmall(b.head + b.size, b.cap);
      PlaceDropFront(b.slots, b.head, q, Some(x));
      ModSmall(b.head + 1, b.cap);
      ModSmall((b.head + 1) % b.cap + b.cap, b.cap);
    }
  }

  /**
   * Clear empties the buffer but keeps both cursors, so the result represents
   * the empty queue exactly when the two cursors already coincided.
   */
  lemma ClearRepresentsEmptyIff<T>(b: Buffer<T>)
    requires Valid(b)
    ensures Represents(Clear(b), []) <==> b.head == b.tail
  {
    var c := Clear(b);
    assert RotFrom(c.slots, c.head) == Somes<T>([]) + Nones(c.cap);
    ModSmall(b.head, b.cap);
  }

  /**
   * A clear of an empty or a full buffer finds the cursors together, so the
   * cleared buffer represents the empty queue.
   */
  lemma ClearOnEmptyOrFullRepresentsEmpty<T>(b: Buffer<T>, q: seq<T>)
    requires Represents(b, q) && (|q| == 0 || |q| == b.cap)
    ensures b.head == b.tail
    ensures Represents(Clear(b), [])
  {
    ModSmall(b.head + b.size, b.cap);
    ClearRepresentsEmptyIff(b);
  }

  /** After a clear the next writes are placed from the old write cursor onward. */
  lemma ClearPlacesAtTail<T>(b: Buffer<T>)
    requires Valid(b)
    ensures Placed(Clear(b).slots, b.tail, [])
  {
    var c := Clear(b);
    assert RotFrom(c.slots, b.tail) == Somes<T>([]) + Nones(c.cap);
    ModSmall(b.tail, b.cap);
  }

  /** The number of non-null cells. */
  function Occupied<T>(slots: seq<Option<T>>): (n: nat)
    ensures n <= |slots|
  {
    if slots == [] then 0
    else (if slots[0].Some? then 1 else 0) + Occupied(slots[1..])
  }

  lemma {:induction false} OccupiedConcat<T>(a: seq<Option<T>>, c: seq<Option<T>>)
    ensures Occupied(a + c) == Occupied(a) + Occupied(c)
  {
    if a != [] {
      assert (a + c)[0] == a[0];
      assert (a + c)[1..] == a[1..] + c;
      OccupiedConcat(a[1..], c);
    } else {
      assert a + c == c;
    }
  }

  lemma {:induction false} OccupiedPlacedShape<T>(q: seq<T>, n: nat)
    ensures Occupied(Somes(q) + Nones<T>(n)) == |q|
  {
    if q == [] {
      assert Somes(q) + Nones<T>(n) == Nones<T>(n);
      OccupiedNones<T>(n);
    } else {
      assert (Somes(q) + Nones<T>(n))[1..] == Somes(q[1..]) + Nones<T>(n);
      OccupiedPlacedShape(q[1..], n);
    }
  }

  lemma {:induction false} OccupiedNones<T>(n: nat)
    ensures Occupied(Nones<T>(n)) == 0
  {
    if n > 0 {
      assert Nones<T>(n)[1..] == Nones<T>(n - 1);
      OccupiedNones<T>(n - 1);
    }
  }

  /** Reading round the ring from `start` is the suffix from `start` followed by the prefix before it. */
  lemma RotationSplits<T>(slots: seq<Option<T>>, start: int)
    requires 0 <= start < |slots|
    ensures RotFrom(slots, start) == slots[start..] + slots[..start]
  {
    var n := |slots|;
    var split := slots[start..] + slots[..start];
    forall k | 0 <= k < n
      ensures RotFrom(slots, start)[k] == split[k]
    {
      ModSmall(start + k, n);
    }
  }

  /** Reading round the ring from `start` sees the same cells, so counts the same. */
  lemma OccupiedRotation<T>(slots: seq<Option<T>>, start: int)
    requires 0 <= start < |slots|
    ensures Occupied(RotFrom(slots, start)) == Occupied(slots)
  {
    RotationSplits(slots, start);
    OccupiedSwap(slots, start, RotFrom(slots, start));
  }

  /** Swapping the two halves of a sequence keeps its count. */
  lemma OccupiedSwap<T>(slots: seq<Option<T>>, start: int, r: seq<Option<T>>)
    requires 0 <= start <= |slots| && r == slots[start..] + slots[..start]
    ensures Occupied(r) == Occupied(slots)
  {
    var front, back := slots[..start], slots[start..];
    assert front + back == slots;
    OccupiedConcat(back, front);
    OccupiedConcat(front, back);
  }

  /** While a buffer represents a queue, exactly `size` of its cells are non-null. */
  lemma OccupiedIsSize<T>(b: Buffer<T>, q: seq<T>)
    requires Represents(b, q)
    ensures Occupied(b.slots) == b.size
  {
    OccupiedRotation(b.slots, b.head);
    OccupiedPlacedShape(q, b.cap - |q|);
  }
}

=== FILE: scenarios.dfy ===
/**
 * The call sequences of `circular-buffer.spec.js`, each replayed against the
 * model one stretch at a time: from the stated buffer, the stated calls
 * report the stated events and leave the stated buffer, and every stretch
 * starts where the one before it ended.  Items that are one-character
 * strings in the tests are characters here; the full-buffer test writes the
 * numbers 1, 2 and 3, kept as integers, and the ten-item test's strings
 * '1' to '10' are the integers 1 to 10.
 */
module Scenarios {
  import opened CircularBuffer
  import opened QueueView
  import opened Trace

  /** Reading a fresh buffer of ten slots fails as empty. */
  lemma ReadFreshFails()
    ensures Read(New<int>(10)) == Err(BufferEmptyError)
  {
  }

  /** Capacity 1: the item just written is the item read. */
  lemma ReadJustWritten()
    ensures Run(New<char>(1), [WriteOp('1'), ReadOp]).0 == [Done, Returned(Some('1'))]
  {
    WriteThenRead(New<char>(1), '1');
  }

  /** Capacity 10: writing 1 to 10 fills the slots in that order. */
  lemma FillTenInOrder()
    ensures Run(New<int>(10), Writes([1, 2, 3, 4, 5, 6, 7, 8, 9, 10])).1.slots
            == [Some(1), Some(2), Some(3), Some(4), Some(5), Some(6), Some(7), Some(8), Some(9), Some(10)]
  {
    var ten := [1, 2, 3, 4, 5, 6, 7, 8, 9, 10];
    FillFreshLaysOutInOrder(10, ten);
    assert Nones<int>(0) == [];
    assert Somes(ten) + [] == Somes(ten);
  }

  /** Capacity 10, continuing: ten reads then return 1 to 10 in the order written. */
  lemma FillTenThenReadInOrder()
    ensures Run(New<int>(10), Writes([1, 2, 3, 4, 5, 6, 7, 8, 9, 10]) + Reads(10)).0
            == [Done, Done, Done, Done, Done, Done, Done, Done, Done, Done,
                Returned(Some(1)), Returned(Some(2)), Returned(Some(3)), Returned(Some(4)), Returned(Some(5)),
                Returned(Some(6)), Returned(Some(7)), Returned(Some(8)), Returned(Some(9)), Returned(Some(10))]
  {
    var ten := [1, 2, 3, 4, 5, 6, 7, 8, 9, 10];
    FillThenDrain(10, ten);
  }

  /** Capacity 3: writing 1, 2 and 3 fills the buffer. */
  lemma FillThree()
    ensures Run(New<int>(3),
                [WriteOp(1), WriteOp(2), WriteOp(3)])
            == ([Done, Done, Done],
                Buffer([Some(1), Some(2), Some(3)], 0, 0, 3, 3))
  {
    var s0 := New<int>(3);
    var s1 := Buffer([Some(1), None, None], 0, 1, 1, 3);
    var s2 := Buffer([Some(1), Some(2), None], 0, 2, 2, 3);
    var s3 := Buffer([Some(1), Some(2), Some(3)], 0, 0, 3, 3);
    assert Step(s0, WriteOp(1)).0 == Done;
    assert Step(s0, WriteOp(1)).1 == s1;
    RunSingle(s0, WriteOp(1));
    assert Step(s1, WriteOp(2)).0 == Done;
    assert Step(s1, WriteOp(2)).1 == s2;
    RunSingle(s1, WriteOp(2));
    assert Step(s2, WriteOp(3)).0 == Done;
    assert Step(s2, WriteOp(3)).1 == s3;
    RunSingle(s2, WriteOp(3));
    RunAppend(s1, [WriteOp(2)], [WriteOp(3)]);
    assert [WriteOp(2)] + [WriteOp(3)] == [WriteOp(2), WriteOp(3)];
    RunAppend(s0, [WriteOp(1)], [WriteOp(2), WriteOp(3)]);
    assert [WriteOp(1)] + [WriteOp(2), WriteOp(3)] == [WriteOp(1), WriteOp(2), WriteOp(3)];
    assert Run(New<int>(3), [WriteOp(1), WriteOp(2), WriteOp(3)]).0 == [Done, Done, Done];
    assert Run(New<int>(3), [WriteOp(1), WriteOp(2), WriteOp(3)]).1 == Buffer([Some(1), Some(2), Some(3)], 0, 0, 3, 3);
  }

  /** Capacity 3, continuing: a fourth strict write fails as full and changes nothing. */
  lemma WriteToFullFails()
    ensures Run(Buffer([Some(1), Some(2), Some(3)], 0, 0, 3, 3),
                [WriteOp(0)])
            == ([Failed(BufferFullError)],
                Buffer([Some(1), Some(2), Some(3)], 0, 0, 3, 3))
  {
    var s0 := Buffer([Some(1), Some(2), Some(3)], 0, 0, 3, 3);
    var s1 := Buffer([Some(1), Some(2), Some(3)], 0, 0, 3, 3);
    assert Step(s0, WriteOp(0)).0 == Failed(BufferFullError);
    assert Step(s0, WriteOp(0)).1 == s1;
    RunSingle(s0, WriteOp(0));
    assert Run(Buffer([Some(1), Some(2), Some(3)], 0, 0, 3, 3), [WriteOp(0)]).0 == [Failed(BufferFullError)];
    assert Run(Buffer([Some(1), Some(2), Some(3)], 0, 0, 3, 3), [WriteOp(0)]).1 == Buffer([Some(1), Some(2), Some(3)], 0, 0, 3, 3);
  }

  /** Capacity 7: after three writes a clear nulls every slot and counts no item, but the write cursor stays at cell 3. */
  lemma ClearAfterThreeWrites()
    ensures Run(New<char>(7),
                [WriteOp('1'), WriteOp('1'), WriteOp('1'), ClearOp])
            == ([Done, Done, Done, Done],
                Buffer([None, None, None, None, None, None, None], 0, 3, 0, 7))
  {
    var s0 := New<char>(7);
    var s1 := Buffer([Some('1'), None, None, None, None, None, None], 0, 1, 1, 7);
    var s2 := Buffer([Some('1'), Some('1'), None, None, None, None, None], 0, 2, 2, 7);
    var s3 := Buffer([Some('1'), Some('1'), Some('1'), None, None, None, None], 0, 3, 3, 7);
    var s4 := Buffer([None, None, None, None, None, None, None], 0, 3, 0, 7);
    assert Step(s0, WriteOp('1')).0 == Done;
    assert Step(s0, WriteOp('1')).1 == s1;
    RunSingle(s0, WriteOp('1'));
    assert Step(s1, WriteOp('1')).0 == Done;
    assert Step(s1, WriteOp('1')).1 == s2;
    RunSingle(s1, WriteOp('1'));
    assert Step(s2, WriteOp('1')).0 == Done;
    assert Step(s2, WriteOp('1')).1 == s3;
    RunSingle(s2, WriteOp('1'));
    assert Step(s3, ClearOp).0 == Done;
    assert Step(s3, ClearOp).1 == s4;
    RunSingle(s3, ClearOp);
    RunAppend(s2, [WriteOp('1')], [ClearOp]);
    assert [WriteOp('1')] + [ClearOp] == [WriteOp('1'), ClearOp];
    RunAppend(s1, [WriteOp('1')], [WriteOp('1'), ClearOp]);
    assert [WriteOp('1')] + [WriteOp('1'), ClearOp] == [WriteOp('1'), WriteOp('1'), ClearOp];
    RunAppend(s0, [WriteOp('1')], [WriteOp('1'), WriteOp('1'), ClearOp]);
    assert [WriteOp('1')] + [WriteOp('1'), WriteOp('1'), ClearOp] == [WriteOp('1'), WriteOp('1'), WriteOp('1'), ClearOp];
    assert Run(New<char>(7), [WriteOp('1'), WriteOp('1'), WriteOp('1'), ClearOp]).0 == [Done, Done, Done, Done];
    assert Run(New<char>(7), [WriteOp('1'), WriteOp('1'), WriteOp('1'), ClearOp]).1 == Buffer([None, None, None, None, None, None, None], 0, 3, 0, 7);
  }

  /** Capacity 7, continuing: three writes after the clear fill cells 3 to 5. */
  lemma WritesResumeAtOldTail()
    ensures Run(Buffer([None, None, None, None, None, None, None], 0, 3, 0, 7),
                [WriteOp('1'), WriteOp('2'), WriteOp('3')])
            == ([Done, Done, Done],
                Buffer([None, None, None, Some('1'), Some('2'), Some('3'), None], 0, 6, 3, 7))
  {
    var s0 := Buffer([None, None, None, None, None, None, None], 0, 3, 0, 7);
    var s1 := Buffer([None, None, None, Some('1'), None, None, None], 0, 4, 1, 7);
    var s2 := Buffer([None, None, None, Some('1'), Some('2'), None, None], 0, 5, 2, 7);
    var s3 := Buffer([None, None, None, Some('1'), Some('2'), Some('3'), None], 0, 6, 3, 7);
    assert Step(s0, WriteOp('1')).0 == Done;
    assert Step(s0, WriteOp('1')).1 == s1;
    RunSingle(s0, WriteOp('1'));
    assert Step(s1, WriteOp('2')).0 == Done;
    assert Step(s1, WriteOp('2')).1 == s2;
    RunSingle(s1, WriteOp('2'));
    assert Step(s2, WriteOp('3')).0 == Done;
    assert Step(s2, WriteOp('3')).1 == s3;
    RunSingle(s2, WriteOp('3'));
    RunAppend(s1, [WriteOp('2')], [WriteOp('3')]);
    assert [WriteOp('2')] + [WriteOp('3')] == [WriteOp('2'), WriteOp('3')];
    RunAppend(s0, [WriteOp('1')], [WriteOp('2'), WriteOp('3')]);
    assert [WriteOp('1')] + [WriteOp('2'), WriteOp('3')] == [WriteOp('1'), WriteOp('2'), WriteOp('3')];
    assert Run(Buffer([None, None, None, None, None, None, None], 0, 3, 0, 7), [WriteOp('1'), WriteOp('2'), WriteOp('3')]).0 == [Done, Done, Done];
    assert Run(Buffer([None, None, None, None, None, None, None], 0, 3, 0, 7), [WriteOp('1'), WriteOp('2'), WriteOp('3')]).1 == Buffer([None, None, None, Some('1'), Some('2'), Some('3'), None], 0, 6, 3, 7);
  }

  /** Capacity 7, from the cleared buffer above: three writes fill cells 3 to 5. */
  lemma WritesAfterClearToEnd()
    ensures Run(Buffer([None, None, None, None, None, None, None], 0, 3, 0, 7),
                [WriteOp('4'), WriteOp('5'), WriteOp('6')])
            == ([Done, Done, Done],
                Buffer([None, None, None, Some('4'), Some('5'), Some('6'), None], 0, 6, 3, 7))
  {
    var s0 := Buffer([None, None, None, None, None, None, None], 0, 3, 0, 7);
    var s1 := Buffer([None, None, None, Some('4'), None, None, None], 0, 4, 1, 7);
    var s2 := Buffer([None, None, None, Some('4'), Some('5'), None, None], 0, 5, 2, 7);
    var s3 := Buffer([None, None, None, Some('4'), Some('5'), Some('6'), None], 0, 6, 3, 7);
    assert Step(s0, WriteOp('4')).0 == Done;
    assert Step(s0, WriteOp('4')).1 == s1;
    RunSingle(s0, WriteOp('4'));
    assert Step(s1, WriteOp('5')).0 == Done;
    assert Step(s1, WriteOp('5')).1 == s2;
    RunSingle(s1, WriteOp('5'));
    assert Step(s2, WriteOp('6')).0 == Done;
    assert Step(s2, WriteOp('6')).1 == s3;
    RunSingle(s2, WriteOp('6'));
    RunAppend(s1, [WriteOp('5')], [WriteOp('6')]);
    assert [WriteOp('5')] + [WriteOp('6')] == [WriteOp('5'), WriteOp('6')];
    RunAppend(s0, [WriteOp('4')], [WriteOp('5'), WriteOp('6')]);
    assert [WriteOp('4')] + [WriteOp('5'), WriteOp('6')] == [WriteOp('4'), WriteOp('5'), WriteOp('6')];
    assert Run(Buffer([None, None, None, None, None, None, None], 0, 3, 0, 7), [WriteOp('4'), WriteOp('5'), WriteOp('6')]).0 == [Done, Done, Done];
    assert Run(Buffer([None, None, None, None, None, None, None], 0, 3, 0, 7), [WriteOp('4'), WriteOp('5'), WriteOp('6')]).1 == Buffer([None, None, None, Some('4'), Some('5'), Some('6'), None], 0, 6, 3, 7);
  }

  /** Capacity 7, continuing: three more writes fill cell 6 and wrap round to cells 0 and 1. */
  lemma WritesAfterClearWrap()
    ensures Run(Buffer([None, None, None, Some('4'), Some('5'), Some('6'), None], 0, 6, 3, 7),
                [WriteOp('7'), WriteOp('8'), WriteOp('9')])
            == ([Done, Done, Done],
                Buffer([Some('8'), Some('9'), None, Some('4'), Some('5'), Some('6'), Some('7')], 0, 2, 6, 7))
  {
    var s0 := Buffer([None, None, None, Some('4'), Some('5'), Some('6'), None], 0, 6, 3, 7);
    var s1 := Buffer([None, None, None, Some('4'), Some('5'), Some('6'), Some('7')], 0, 0, 4, 7);
    var s2 := Buffer([Some('8'), None, None, Some('4'), Some('5'), Some('6'), Some('7')], 0, 1, 5, 7);
    var s3 := Buffer([Some('8'), Some('9'), None, Some('4'), Some('5'), Some('6'), Some('7')], 0, 2, 6, 7);
    assert Step(s0, WriteOp('7')).0 == Done;
    assert Step(s0, WriteOp('7')).1 == s1;
    RunSingle(s0, WriteOp('7'));
    assert Step(s1, WriteOp('8')).0 == Done;
    assert Step(s1, WriteOp('8')).1 == s2;
    RunSingle(s1, WriteOp('8'));
    assert Step(s2, WriteOp('9')).0 == Done;
    assert Step(s2, WriteOp('9')).1 == s3;
    RunSingle(s2, WriteOp('9'));
    RunAppend(s1, [WriteOp('8')], [WriteOp('9')]);
    assert [WriteOp('8')] + [WriteOp('9')] == [WriteOp('8'), WriteOp('9')];
    RunAppend(s0, [WriteOp('7')], [WriteOp('8'), WriteOp('9')]);
    assert [WriteOp('7')] + [WriteOp('8'), WriteOp('9')] == [WriteOp('7'), WriteOp('8'), WriteOp('9')];
    assert Run(Buffer([None, None, None, Some('4'), Some('5'), Some('6'), None], 0, 6, 3, 7), [WriteOp('7'), WriteOp('8'), WriteOp('9')]).0 == [Done, Done, Done];
    assert Run(Buffer([None, None, None, Some('4'), Some('5'), Some('6'), None], 0, 6, 3, 7), [WriteOp('7'), WriteOp('8'), WriteOp('9')]).1 == Buffer([Some('8'), Some('9'), None, Some('4'), Some('5'), Some('6'), Some('7')], 0, 2, 6, 7);
  }

  /** Capacity 7, continuing: the clear left the read cursor at cell 0, so three reads return "8", "9" and then the null in cell 2, not the oldest item "4"; the item count is still 3 afterwards while four cells are non-null. */
  lemma ReadsAfterClearStartAtOldHead()
    ensures Run(Buffer([Some('8'), Some('9'), None, Some('4'), Some('5'), Some('6'), Some('7')], 0, 2, 6, 7),
                [ReadOp, ReadOp, ReadOp])
            == ([Returned(Some('8')), Returned(Some('9')), Returned(None)],
                Buffer([None, None, None, Some('4'), Some('5'), Some('6'), Some('7')], 3, 2, 3, 7))
  {
    var s0 := Buffer([Some('8'), Some('9'), None, Some('4'), Some('5'), Some('6'), Some('7')], 0, 2, 6, 7);
    var s1 := Buffer([None, Some('9'), None, Some('4'), Some('5'), Some('6'), Some('7')], 1, 2, 5, 7);
    var s2 := Buffer([None, None, None, Some('4'), Some('5'), Some('6'), Some('7')], 2, 2, 4, 7);
    var s3 := Buffer([None, None, None, Some('4'), Some('5'), Some('6'), Some('7')], 3, 2, 3, 7);
    assert Step(s0, ReadOp).0 == Returned(Some('8'));
    assert Step(s0, ReadOp).1 == s1;
    RunSingle(s0, ReadOp);
    assert Step(s1, ReadOp).0 == Returned(Some('9'));
    assert Step(s1, ReadOp).1 == s2;
    RunSingle(s1, ReadOp);
    assert Step(s2, ReadOp).0 == Returned(None);
    assert Step(s2, ReadOp).1 == s3;
    RunSingle(s2, ReadOp);
    RunAppend(s1, [ReadOp], [ReadOp]);
    assert [Op<char>.ReadOp] + [ReadOp] == [ReadOp, ReadOp];
    RunAppend(s0, [ReadOp], [ReadOp, ReadOp]);
    assert [Op<char>.ReadOp] + [ReadOp, ReadOp] == [ReadOp, ReadOp, ReadOp];
    assert Run(Buffer([Some('8'), Some('9'), None, Some('4'), Some('5'), Some('6'), Some('7')], 0, 2, 6, 7), [ReadOp, ReadOp, ReadOp]).0 == [Returned(Some('8')), Returned(Some('9')), Returned(None)];
    assert Run(Buffer([Some('8'), Some('9'), None, Some('4'), Some('5'), Some('6'), Some('7')], 0, 2, 6, 7), [ReadOp, ReadOp, ReadOp]).1 == Buffer([None, None, None, Some('4'), Some('5'), Some('6'), Some('7')], 3, 2, 3, 7);
  }

  /** Capacity 3: writing A, B and C fills the buffer. */
  lemma FillThreeLetters()
    ensures Run(New<char>(3),
                [WriteOp('A'), WriteOp('B'), WriteOp('C')])
            == ([Done, Done, Done],
                Buffer([Some('A'), Some('B'), Some('C')], 0, 0, 3, 3))
  {
    var s0 := New<char>(3);
    var s1 := Buffer([Some('A'), None, None], 0, 1, 1, 3);
    var s2 := Buffer([Some('A'), Some('B'), None], 0, 2, 2, 3);
    var s3 := Buffer([Some('A'), Some('B'), Some('C')], 0, 0, 3, 3);
    assert Step(s0, WriteOp('A')).0 == Done;
    assert Step(s0, WriteOp('A')).1 == s1;
    RunSingle(s0, WriteOp('A'));
    assert Step(s1, WriteOp('B')).0 == Done;
    assert Step(s1, WriteOp('B')).1 == s2;
    RunSingle(s1, WriteOp('B'));
    assert Step(s2, WriteOp('C')).0 == Done;
    assert Step(s2, WriteOp('C')).1 == s3;
    RunSingle(s2, WriteOp('C'));
    RunAppend(s1, [WriteOp('B')], [WriteOp('C')]);
    assert [WriteOp('B')] + [WriteOp('C')] == [WriteOp('B'), WriteOp('C')];
    RunAppend(s0, [WriteOp('A')], [WriteOp('B'), WriteOp('C')]);
    assert [WriteOp('A')] + [WriteOp('B'), WriteOp('C')] == [WriteOp('A'), WriteOp('B'), WriteOp('C')];
    assert Run(New<char>(3), [WriteOp('A'), WriteOp('B'), WriteOp('C')]).0 == [Done, Done, Done];
    assert Run(New<char>(3), [WriteOp('A'), WriteOp('B'), WriteOp('C')]).1 == Buffer([Some('A'), Some('B'), Some('C')], 0, 0, 3, 3);
  }

  /** Capacity 3, continuing: two reads return A and B, and two writes wrap round to cells 0 and 1, keeping C. */
  lemma ReadTwiceThenWriteWraps()
    ensures Run(Buffer([Some('A'), Some('B'), Some('C')], 0, 0, 3, 3),
                [ReadOp, ReadOp, WriteOp('D'), WriteOp('E')])
            == ([Returned(Some('A')), Returned(Some('B')), Done, Done],
                Buffer([Some('D'), Some('E'), Some('C')], 2, 2, 3, 3))
  {
    var s0 := Buffer([Some('A'), Some('B'), Some('C')], 0, 0, 3, 3);
    var s1 := Buffer([None, Some('B'), Some('C')], 1, 0, 2, 3);
    var s2 := Buffer([None, None, Some('C')], 2, 0, 1, 3);
    var s3 := Buffer([Some('D'), None, Some('C')], 2, 1, 2, 3);
    var s4 := Buffer([Some('D'), Some('E'), Some('C')], 2, 2, 3, 3);
    assert Step(s0, ReadOp).0 == Returned(Some('A'));
    assert Step(s0, ReadOp).1 == s1;
    RunSingle(s0, ReadOp);
    assert Step(s1, ReadOp).0 == Returned(Some('B'));
    assert Step(s1, ReadOp).1 == s2;
    RunSingle(s1, ReadOp);
    assert Step(s2, WriteOp('D')).0 == Done;
    assert Step(s2, WriteOp('D')).1 == s3;
    RunSingle(s2, WriteOp('D'));
    assert Step(s3, WriteOp('E')).0 == Done;
    assert Step(s3, WriteOp('E')).1 == s4;
    RunSingle(s3, WriteOp('E'));
    RunAppend(s2, [WriteOp('D')], [WriteOp('E')]);
    assert [WriteOp('D')] + [WriteOp('E')] == [WriteOp('D'), WriteOp('E')];
    RunAppend(s1, [ReadOp], [WriteOp('D'), WriteOp('E')]);
    assert [Op<char>.ReadOp] + [WriteOp('D'), WriteOp('E')] == [ReadOp, WriteOp('D'), WriteOp('E')];
    RunAppend(s0, [ReadOp], [ReadOp, WriteOp('D'), WriteOp('E')]);
    assert [Op<char>.ReadOp] + [ReadOp, WriteOp('D'), WriteOp('E')] == [ReadOp, ReadOp, WriteOp('D'), WriteOp('E')];
    assert Run(Buffer([Some('A'), Some('B'), Some('C')], 0, 0, 3, 3), [ReadOp, ReadOp, WriteOp('D'), WriteOp('E')]).0 == [Returned(Some('A')), Returned(Some('B')), Done, Done];
    assert Run(Buffer([Some('A'), Some('B'), Some('C')], 0, 0, 3, 3), [ReadOp, ReadOp, WriteOp('D'), WriteOp('E')]).1 == Buffer([Some('D'), Some('E'), Some('C')], 2, 2, 3, 3);
  }

  /** Capacity 7: four strict writes. */
  lemma WriteFourOfSeven()
    ensures Run(New<char>(7),
                [WriteOp('7'), WriteOp('8'), WriteOp('9'), WriteOp('A')])
            == ([Done, Done, Done, Done],
                Buffer([Some('7'), Some('8'), Some('9'), Some('A'), None, None, None], 0, 4, 4, 7))
  {
    var s0 := New<char>(7);
    var s1 := Buffer([Some('7'), None, None, None, None, None, None], 0, 1, 1, 7);
    var s2 := Buffer([Some('7'), Some('8'), None, None, None, None, None], 0, 2, 2, 7);
    var s3 := Buffer([Some('7'), Some('8'), Some('9'), None, None, None, None], 0, 3, 3, 7);
    var s4 := Buffer([Some('7'), Some('8'), Some('9'), Some('A'), None, None, None], 0, 4, 4, 7);
    assert Step(s0, WriteOp('7')).0 == Done;
    assert Step(s0, WriteOp('7')).1 == s1;
    RunSingle(s0, WriteOp('7'));
    assert Step(s1, WriteOp('8')).0 == Done;
    assert Step(s1, WriteOp('8')).1 == s2;
    RunSingle(s1, WriteOp('8'));
    assert Step(s2, WriteOp('9')).0 == Done;
    assert Step(s2, WriteOp('9')).1 == s3;
    RunSingle(s2, WriteOp('9'));
    assert Step(s3, WriteOp('A')).0 == Done;
    assert Step(s3, WriteOp('A')).1 == s4;
    RunSingle(s3, WriteOp('A'));
    RunAppend(s2, [WriteOp('9')], [WriteOp('A')]);
    assert [WriteOp('9')] + [WriteOp('A')] == [WriteOp('9'), WriteOp('A')];
    RunAppend(s1, [WriteOp('8')], [WriteOp('9'), WriteOp('A')]);
    assert [WriteOp('8')] + [WriteOp('9'), WriteOp('A')] == [WriteOp('8'), WriteOp('9'), WriteOp('A')];
    RunAppend(s0, [WriteOp('7')], [WriteOp('8'), WriteOp('9'), WriteOp('A')]);
    assert [WriteOp('7')] + [WriteOp('8'), WriteOp('9'), WriteOp('A')] == [WriteOp('7'), WriteOp('8'), WriteOp('9'), WriteOp('A')];
    assert Run(New<char>(7), [WriteOp('7'), WriteOp('8'), WriteOp('9'), WriteOp('A')]).0 == [Done, Done, Done, Done];
    assert Run(New<char>(7), [WriteOp('7'), WriteOp('8'), WriteOp('9'), WriteOp('A')]).1 == Buffer([Some('7'), Some('8'), Some('9'), Some('A'), None, None, None], 0, 4, 4, 7);
  }

  /** Capacity 7, continuing: a strict write and two force-writes with room fill cells 4 to 6, as strict writes would. */
  lemma ForceWriteWithRoom()
    ensures Run(Buffer([Some('7'), Some('8'), Some('9'), Some('A'), None, None, None], 0, 4, 4, 7),
                [WriteOp('B'), ForceWriteOp('C'), ForceWriteOp('D')])
            == ([Done, Done, Done],
                Buffer([Some('7'), Some('8'), Some('9'), Some('A'), Some('B'), Some('C'), Some('D')], 0, 0, 7, 7))
  {
    var s0 := Buffer([Some('7'), Some('8'), Some('9'), Some('A'), None, None, None], 0, 4, 4, 7);
    var s1 := Buffer([Some('7'), Some('8'), Some('9'), Some('A'), Some('B'), None, None], 0, 5, 5, 7);
    var s2 := Buffer([Some('7'), Some('8'), Some('9'), Some('A'), Some('B'), Some('C'), None], 0, 6, 6, 7);
    var s3 := Buffer([Some('7'), Some('8'), Some('9'), Some('A'), Some('B'), Some('C'), Some('D')], 0, 0, 7, 7);
    assert Step(s0, WriteOp('B')).0 == Done;
    assert Step(s0, WriteOp('B')).1 == s1;
    RunSingle(s0, WriteOp('B'));
    assert Step(s1, ForceWriteOp('C')).0 == Done;
    assert Step(s1, ForceWriteOp('C')).1 == s2;
    RunSingle(s1, ForceWriteOp('C'));
    assert Step(s2, ForceWriteOp('D')).0 == Done;
    assert Step(s2, ForceWriteOp('D')).1 == s3;
    RunSingle(s2, ForceWriteOp('D'));
    RunAppend(s1, [ForceWriteOp('C')], [ForceWriteOp('D')]);
    assert [ForceWriteOp('C')] + [ForceWriteOp('D')] == [ForceWriteOp('C'), ForceWriteOp('D')];
    RunAppend(s0, [WriteOp('B')], [ForceWriteOp('C'), ForceWriteOp('D')]);
    assert [WriteOp('B')] + [ForceWriteOp('C'), ForceWriteOp('D')] == [WriteOp('B'), ForceWriteOp('C'), ForceWriteOp('D')];
    assert Run(Buffer([Some('7'), Some('8'), Some('9'), Some('A'), None, None, None], 0, 4, 4, 7), [WriteOp('B'), ForceWriteOp('C'), ForceWriteOp('D')]).0 == [Done, Done, Done];
    assert Run(Buffer([Some('7'), Some('8'), Some('9'), Some('A'), None, None, None], 0, 4, 4, 7), [WriteOp('B'), ForceWriteOp('C'), ForceWriteOp('D')]).1 == Buffer([Some('7'), Some('8'), Some('9'), Some('A'), Some('B'), Some('C'), Some('D')], 0, 0, 7, 7);
  }

  /** Capacity 7: four writes. */
  lemma OverwriteSetupFirstWrites()
    ensures Run(New<char>(7),
                [WriteOp('1'), WriteOp('1'), WriteOp('1'), WriteOp('1')])
            == ([Done, Done, Done, Done],
                Buffer([Some('1'), Some('1'), Some('1'), Some('1'), None, None, None], 0, 4, 4, 7))
  {
    var s0 := New<char>(7);
    var s1 := Buffer([Some('1'), None, None, None, None, None, None], 0, 1, 1, 7);
    var s2 := Buffer([Some('1'), Some('1'), None, None, None, None, None], 0, 2, 2, 7);
    var s3 := Buffer([Some('1'), Some('1'), Some('1'), None, None, None, None], 0, 3, 3, 7);
    var s4 := Buffer([Some('1'), Some('1'), Some('1'), Some('1'), None, None, None], 0, 4, 4, 7);
    assert Step(s0, WriteOp('1')).0 == Done;
    assert Step(s0, WriteOp('1')).1 == s1;
    RunSingle(s0, WriteOp('1'));
    assert Step(s1, WriteOp('1')).0 == Done;
    assert Step(s1, WriteOp('1')).1 == s2;
    RunSingle(s1, WriteOp('1'));
    assert Step(s2, WriteOp('1')).0 == Done;
    assert Step(s2, WriteOp('1')).1 == s3;
    RunSingle(s2, WriteOp('1'));
    assert Step(s3, WriteOp('1')).0 == Done;
    assert Step(s3, WriteOp('1')).1 == s4;
    RunSingle(s3, WriteOp('1'));
    RunAppend(s2, [WriteOp('1')], [WriteOp('1')]);
    assert [WriteOp('1')] + [WriteOp('1')] == [WriteOp('1'), WriteOp('1')];
    RunAppend(s1, [WriteOp('1')], [WriteOp('1'), WriteOp('1')]);
    assert [WriteOp('1')] + [WriteOp('1'), WriteOp('1')] == [WriteOp('1'), WriteOp('1'), WriteOp('1')];
    RunAppend(s0, [WriteOp('1')], [WriteOp('1'), WriteOp('1'), WriteOp('1')]);
    assert [WriteOp('1')] + [WriteOp('1'), WriteOp('1'), WriteOp('1')] == [WriteOp('1'), WriteOp('1'), WriteOp('1'), WriteOp('1')];
    assert Run(New<char>(7), [WriteOp('1'), WriteOp('1'), WriteOp('1'), WriteOp('1')]).0 == [Done, Done, Done, Done];
    assert Run(New<char>(7), [WriteOp('1'), WriteOp('1'), WriteOp('1'), WriteOp('1')]).1 == Buffer([Some('1'), Some('1'), Some('1'), Some('1'), None, None, None], 0, 4, 4, 7);
  }

  /** Capacity 7, continuing: three more writes fill the buffer. */
  lemma OverwriteSetupFill()
    ensures Run(Buffer([Some('1'), Some('1'), Some('1'), Some('1'), None, None, None], 0, 4, 4, 7),
                [WriteOp('3'), WriteOp('4'), WriteOp('5')])
            == ([Done, Done, Done],
                Buffer([Some('1'), Some('1'), Some('1'), Some('1'), Some('3'), Some('4'), Some('5')], 0, 0, 7, 7))
  {
    var s0 := Buffer([Some('1'), Some('1'), Some('1'), Some('1'), None, None, None], 0, 4, 4, 7);
    var s1 := Buffer([Some('1'), Some('1'), Some('1'), Some('1'), Some('3'), None, None], 0, 5, 5, 7);
    var s2 := Buffer([Some('1'), Some('1'), Some('1'), Some('1'), Some('3'), Some('4'), None], 0, 6, 6, 7);
    var s3 := Buffer([Some('1'), Some('1'), Some('1'), Some('1'), Some('3'), Some('4'), Some('5')], 0, 0, 7, 7);
    assert Step(s0, WriteOp('3')).0 == Done;
    assert Step(s0, WriteOp('3')).1 == s1;
    RunSingle(s0, WriteOp('3'));
    assert Step(s1, WriteOp('4')).0 == Done;
    assert Step(s1, WriteOp('4')).1 == s2;
    RunSingle(s1, WriteOp('4'));
    assert Step(s2, WriteOp('5')).0 == Done;
    assert Step(s2, WriteOp('5')).1 == s3;
    RunSingle(s2, WriteOp('5'));
    RunAppend(s1, [WriteOp('4')], [WriteOp('5')]);
    assert [WriteOp('4')] + [WriteOp('5')] == [WriteOp('4'), WriteOp('5')];
    RunAppend(s0, [WriteOp('3')], [WriteOp('4'), WriteOp('5')]);
    assert [WriteOp('3')] + [WriteOp('4'), WriteOp('5')] == [WriteOp('3'), WriteOp('4'), WriteOp('5')];
    assert Run(Buffer([Some('1'), Some('1'), Some('1'), Some('1'), None, None, None], 0, 4, 4, 7), [WriteOp('3'), WriteOp('4'), WriteOp('5')]).0 == [Done, Done, Done];
    assert Run(Buffer([Some('1'), Some('1'), Some('1'), Some('1'), None, None, None], 0, 4, 4, 7), [WriteOp('3'), WriteOp('4'), WriteOp('5')]).1 == Buffer([Some('1'), Some('1'), Some('1'), Some('1'), Some('3'), Some('4'), Some('5')], 0, 0, 7, 7);
  }

  /** Capacity 7, continuing: four reads move the read cursor to cell 4. */
  lemma OverwriteSetupDrain()
    ensures Run(Buffer([Some('1'), Some('1'), Some('1'), Some('1'), Some('3'), Some('4'), Some('5')], 0, 0, 7, 7),
                [ReadOp, ReadOp, ReadOp, ReadOp])
            == ([Returned(Some('1')), Returned(Some('1')), Returned(Some('1')), Returned(Some('1'))],
                Buffer([None, None, None, None, Some('3'), Some('4'), Some('5')], 4, 0, 3, 7))
  {
    var s0 := Buffer([Some('1'), Some('1'), Some('1'), Some('1'), Some('3'), Some('4'), Some('5')], 0, 0, 7, 7);
    var s1 := Buffer([None, Some('1'), Some('1'), Some('1'), Some('3'), Some('4'), Some('5')], 1, 0, 6, 7);
    var s2 := Buffer([None, None, Some('1'), Some('1'), Some('3'), Some('4'), Some('5')], 2, 0, 5, 7);
    var s3 := Buffer([None, None, None, Some('1'), Some('3'), Some('4'), Some('5')], 3, 0, 4, 7);
    var s4 := Buffer([None, None, None, None, Some('3'), Some('4'), Some('5')], 4, 0, 3, 7);
    assert Step(s0, ReadOp).0 == Returned(Some('1'));
    assert Step(s0, ReadOp).1 == s1;
    RunSingle(s0, ReadOp);
    assert Step(s1, ReadOp).0 == Returned(Some('1'));
    assert Step(s1, ReadOp).1 == s2;
    RunSingle(s1, ReadOp);
    assert Step(s2, ReadOp).0 == Returned(Some('1'));
    assert Step(s2, ReadOp).1 == s3;
    RunSingle(s2, ReadOp);
    assert Step(s3, ReadOp).0 == Returned(Some('1'));
    assert Step(s3, ReadOp).1 == s4;
    RunSingle(s3, ReadOp);
    RunAppend(s2, [ReadOp], [ReadOp]);
    assert [Op<char>.ReadOp] + [ReadOp] == [ReadOp, ReadOp];
    RunAppend(s1, [ReadOp], [ReadOp, ReadOp]);
    assert [Op<char>.ReadOp] + [ReadOp, ReadOp] == [ReadOp, ReadOp, ReadOp];
    RunAppend(s0, [ReadOp], [ReadOp, ReadOp, ReadOp]);
    assert [Op<char>.ReadOp] + [ReadOp, ReadOp, ReadOp] == [ReadOp, ReadOp, ReadOp, ReadOp];
    assert Run(Buffer([Some('1'), Some('1'), Some('1'), Some('1'), Some('3'), Some('4'), Some('5')], 0, 0, 7, 7), [ReadOp, ReadOp, ReadOp, ReadOp]).0 == [Returned(Some('1')), Returned(Some('1')), Returned(Some('1')), Returned(Some('1'))];
    assert Run(Buffer([Some('1'), Some('1'), Some('1'), Some('1'), Some('3'), Some('4'), Some('5')], 0, 0, 7, 7), [ReadOp, ReadOp, ReadOp, ReadOp]).1 == Buffer([None, None, None, None, Some('3'), Some('4'), Some('5')], 4, 0, 3, 7);
  }

  /** Capacity 7, continuing: four writes wrap round and fill the buffer again, oldest item in cell 4. */
  lemma OverwriteSetupRefill()
    ensures Run(Buffer([None, None, None, None, Some('3'), Some('4'), Some('5')], 4, 0, 3, 7),
                [WriteOp('6'), WriteOp('7'), WriteOp('8'), WriteOp('9')])
            == ([Done, Done, Done, Done],
                Buffer([Some('6'), Some('7'), Some('8'), Some('9'), Some('3'), Some('4'), Some('5')], 4, 4, 7, 7))
  {
    var s0 := Buffer([None, None, None, None, Some('3'), Some('4'), Some('5')], 4, 0, 3, 7);
    var s1 := Buffer([Some('6'), None, None, None, Some('3'), Some('4'), Some('5')], 4, 1, 4, 7);
    var s2 := Buffer([Some('6'), Some('7'), None, None, Some('3'), Some('4'), Some('5')], 4, 2, 5, 7);
    var s3 := Buffer([Some('6'), Some('7'), Some('8'), None, Some('3'), Some('4'), Some('5')], 4, 3, 6, 7);
    var s4 := Buffer([Some('6'), Some('7'), Some('8'), Some('9'), Some('3'), Some('4'), Some('5')], 4, 4, 7, 7);
    assert Step(s0, WriteOp('6')).0 == Done;
    assert Step(s0, WriteOp('6')).1 == s1;
    RunSingle(s0, WriteOp('6'));
    assert Step(s1, WriteOp('7')).0 == Done;
    assert Step(s1, WriteOp('7')).1 == s2;
    RunSingle(s1, WriteOp('7'));
    assert Step(s2, WriteOp('8')).0 == Done;
    assert Step(s2, WriteOp('8')).1 == s3;
    RunSingle(s2, WriteOp('8'));
    assert Step(s3, WriteOp('9')).0 == Done;
    assert Step(s3, WriteOp('9')).1 == s4;
    RunSingle(s3, WriteOp('9'));
    RunAppend(s2, [WriteOp('8')], [WriteOp('9')]);
    assert [WriteOp('8')] + [WriteOp('9')] == [WriteOp('8'), WriteOp('9')];
    RunAppend(s1, [WriteOp('7')], [WriteOp('8'), WriteOp('9')]);
    assert [WriteOp('7')] + [WriteOp('8'), WriteOp('9')] == [WriteOp('7'), WriteOp('8'), WriteOp('9')];
    RunAppend(s0, [WriteOp('6')], [WriteOp('7'), WriteOp('8'), WriteOp('9')]);
    assert [WriteOp('6')] + [WriteOp('7'), WriteOp('8'), WriteOp('9')] == [WriteOp('6'), WriteOp('7'), WriteOp('8'), WriteOp('9')];
    assert Run(Buffer([None, None, None, None, Some('3'), Some('4'), Some('5')], 4, 0, 3, 7), [WriteOp('6'), WriteOp('7'), WriteOp('8'), WriteOp('9')]).0 == [Done, Done, Done, Done];
    assert Run(Buffer([None, None, None, None, Some('3'), Some('4'), Some('5')], 4, 0, 3, 7), [WriteOp('6'), WriteOp('7'), WriteOp('8'), WriteOp('9')]).1 == Buffer([Some('6'), Some('7'), Some('8'), Some('9'), Some('3'), Some('4'), Some('5')], 4, 4, 7, 7);
  }

  /** Capacity 7, continuing: on the full buffer two force-writes overwrite the two oldest items, in cells 4 and 5, and move both cursors to cell 6. */
  lemma ForceWriteOnFullEvictsOldest()
    ensures Run(Buffer([Some('6'), Some('7'), Some('8'), Some('9'), Some('3'), Some('4'), Some('5')], 4, 4, 7, 7),
                [ForceWriteOp('A'), ForceWriteOp('B')])
            == ([Done, Done],
                Buffer([Some('6'), Some('7'), Some('8'), Some('9'), Some('A'), Some('B'), Some('5')], 6, 6, 7, 7))
  {
    var s0 := Buffer([Some('6'), Some('7'), Some('8'), Some('9'), Some('3'), Some('4'), Some('5')], 4, 4, 7, 7);
    var s1 := Buffer([Some('6'), Some('7'), Some('8'), Some('9'), Some('A'), Some('4'), Some('5')], 5, 5, 7, 7);
    var s2 := Buffer([Some('6'), Some('7'), Some('8'), Some('9'), Some('A'), Some('B'), Some('5')], 6, 6, 7, 7);
    assert Step(s0, ForceWriteOp('A')).0 == Done;
    assert Step(s0, ForceWriteOp('A')).1 == s1;
    RunSingle(s0, ForceWriteOp('A'));
    assert Step(s1, ForceWriteOp('B')).0 == Done;
    assert Step(s1, ForceWriteOp('B')).1 == s2;
    RunSingle(s1, ForceWriteOp('B'));
    RunAppend(s0, [ForceWriteOp('A')], [ForceWriteOp('B')]);
    assert [ForceWriteOp('A')] + [ForceWriteOp('B')] == [ForceWriteOp('A'), ForceWriteOp('B')];
    assert Run(Buffer([Some('6'), Some('7'), Some('8'), Some('9'), Some('3'), Some('4'), Some('5')], 4, 4, 7, 7), [ForceWriteOp('A'), ForceWriteOp('B')]).0 == [Done, Done];
    assert Run(Buffer([Some('6'), Some('7'), Some('8'), Some('9'), Some('3'), Some('4'), Some('5')], 4, 4, 7, 7), [ForceWriteOp('A'), ForceWriteOp('B')]).1 == Buffer([Some('6'), Some('7'), Some('8'), Some('9'), Some('A'), Some('B'), Some('5')], 6, 6, 7, 7);
  }

  /** Capacity 7, continuing: two reads return 5 and 6, the oldest survivors, and null cells 6 and 0. */
  lemma ReadAfterOverwrite()
    ensures Run(Buffer([Some('6'), Some('7'), Some('8'), Some('9'), Some('A'), Some('B'), Some('5')], 6, 6, 7, 7),
                [ReadOp, ReadOp])
            == ([Returned(Some('5')), Returned(Some('6'))],
                Buffer([None, Some('7'), Some('8'), Some('9'), Some('A'), Some('B'), None], 1, 6, 5, 7))
  {
    var s0 := Buffer([Some('6'), Some('7'), Some('8'), Some('9'), Some('A'), Some('B'), Some('5')], 6, 6, 7, 7);
    var s1 := Buffer([Some('6'), Some('7'), Some('8'), Some('9'), Some('A'), Some('B'), None], 0, 6, 6, 7);
    var s2 := Buffer([None, Some('7'), Some('8'), Some('9'), Some('A'), Some('B'), None], 1, 6, 5, 7);
    assert Step(s0, ReadOp).0 == Returned(Some('5'));
    assert Step(s0, ReadOp).1 == s1;
    RunSingle(s0, ReadOp);
    assert Step(s1, ReadOp).0 == Returned(Some('6'));
    assert Step(s1, ReadOp).1 == s2;
    RunSingle(s1, ReadOp);
    RunAppend(s0, [ReadOp], [ReadOp]);
    assert [Op<char>.ReadOp] + [ReadOp] == [ReadOp, ReadOp];
    assert Run(Buffer([Some('6'), Some('7'), Some('8'), Some('9'), Some('A'), Some('B'), Some('5')], 6, 6, 7, 7), [ReadOp, ReadOp]).0 == [Returned(Some('5')), Returned(Some('6'))];
    assert Run(Buffer([Some('6'), Some('7'), Some('8'), Some('9'), Some('A'), Some('B'), Some('5')], 6, 6, 7, 7), [ReadOp, ReadOp]).1 == Buffer([None, Some('7'), Some('8'), Some('9'), Some('A'), Some('B'), None], 1, 6, 5, 7);
  }

  /** Capacity 7, continuing: with room again, two force-writes fill cells 6 and 0. */
  lemma ForceWriteRefillsFreedCells()
    ensures Run(Buffer([None, Some('7'), Some('8'), Some('9'), Some('A'), Some('B'), None], 1, 6, 5, 7),
                [ForceWriteOp('C'), ForceWriteOp('D')])
            == ([Done, Done],
                Buffer([Some('D'), Some('7'), Some('8'), Some('9'), Some('A'), Some('B'), Some('C')], 1, 1, 7, 7))
  {
    var s0 := Buffer([None, Some('7'), Some('8'), Some('9'), Some('A'), Some('B'), None], 1, 6, 5, 7);
    var s1 := Buffer([None, Some('7'), Some('8'), Some('9'), Some('A'), Some('B'), Some('C')], 1, 0, 6, 7);
    var s2 := Buffer([Some('D'), Some('7'), Some('8'), Some('9'), Some('A'), Some('B'), Some('C')], 1, 1, 7, 7);
    assert Step(s0, ForceWriteOp('C')).0 == Done;
    assert Step(s0, ForceWriteOp('C')).1 == s1;
    RunSingle(s0, ForceWriteOp('C'));
    assert Step(s1, ForceWriteOp('D')).0 == Done;
    assert Step(s1, ForceWriteOp('D')).1 == s2;
    RunSingle(s1, ForceWriteOp('D'));
    RunAppend(s0, [ForceWriteOp('C')], [ForceWriteOp('D')]);
    assert [ForceWriteOp('C')] + [ForceWriteOp('D')] == [ForceWriteOp('C'), ForceWriteOp('D')];
    assert Run(Buffer([None, Some('7'), Some('8'), Some('9'), Some('A'), Some('B'), None], 1, 6, 5, 7), [ForceWriteOp('C'), ForceWriteOp('D')]).0 == [Done, Done];
    assert Run(Buffer([None, Some('7'), Some('8'), Some('9'), Some('A'), Some('B'), None], 1, 6, 5, 7), [ForceWriteOp('C'), ForceWriteOp('D')]).1 == Buffer([Some('D'), Some('7'), Some('8'), Some('9'), Some('A'), Some('B'), Some('C')], 1, 1, 7, 7);
  }
}

=== FILE: trace.dfy ===
/**
 * Sequences of calls on one buffer.  A thrown error becomes a `Failed` event
 * and leaves the buffer as it was; a read's returned slot becomes a
 * `Returned` event.  The same calls run against the bounded queue give the
 * reference outcome: on any trace without a clear the buffer reports exactly
 * what the queue reports.
 */
module Trace {
  import opened CircularBuffer
  import opened BoundedQueue
  import opened QueueView
  import opened Refinement

  /** One call on the buffer. */
  datatype Op<T> = WriteOp(item: T) | ReadOp | ForceWriteOp(item: T) | ClearOp

  /** What one call reports: success with nothing to return, a thrown error, or a read's item. */
  datatype Event<T> = Done | Failed(error: BufferError) | Returned(item: Option<T>)

  /** One call on the buffer; a failing call changes nothing. */
  function Step<T>(b: Buffer<T>, op: Op<T>): (r: (Event<T>, Buffer<T>))
    requires Valid(b)
    ensures Valid(r.1) && r.1.cap == b.cap
    ensures r.0.Failed? <==> (op.WriteOp? && b.size == b.cap) || (op.ReadOp? && b.size == 0)
    ensures r.0.Failed? ==> r.1 == b
  {
    match op
    case WriteOp(x) =>
      (match Write(b, x)
       case Ok(b') => (Done, b')
       case Err(e) => (Failed(e), b))
    case ReadOp =>
      (match Read(b)
       case Ok(out) => (Returned(out.0), out.1)
       case Err(e) => (Failed(e), b))
    case ForceWriteOp(x) => (Done, ForceWrite(b, x))
    case ClearOp => (Done, Clear(b))
  }

  /** The calls `ops` in order: one event per call and the final buffer, which keeps every bound. */
  function Run<T>(b: Buffer<T>, ops: seq<Op<T>>): (r: (seq<Event<T>>, Buffer<T>))
    requires Valid(b)
    ensures |r.0| == |ops|
    ensures Valid(r.1) && r.1.cap == b.cap
    decreases |ops|
  {
    if ops == [] then ([], b)
    else
      var first := Step(b, ops[0]);
      var rest := Run(first.1, ops[1..]);
      ([first.0] + rest.0, rest.1)
  }

  /** The same call on the reference queue; clear empties it. */
  function QueueStep<T>(q: seq<T>, cap: int, op: Op<T>): (r: (Event<T>, seq<T>))
    requires 0 < cap && |q| <= cap
    ensures |r.1| <= cap
  {
    match op
    case WriteOp(x) =>
      (match Push(q, cap, x)
       case Ok(q') => (Done, q')
       case Err(e) => (Failed(e), q))
    case ReadOp =>
      (match Pop(q)
       case Ok(out) => (Returned(Some(out.0)), out.1)
       case Err(e) => (Failed(e), q))
    case ForceWriteOp(x) => (Done, PushEvict(q, cap, x))
    case ClearOp => (Done, [])
  }

  function QueueRun<T>(q: seq<T>, cap: int, ops: seq<Op<T>>): (r: (seq<Event<T>>, seq<T>))
    requires 0 < cap && |q| <= cap
    ensures |r.0| == |ops| && |r.1| <= cap
    decreases |ops|
  {
    if ops == [] then ([], q)
    else
      var first := QueueStep(q, cap, ops[0]);
      var rest := QueueRun(first.1, cap, ops[1..]);
      ([first.0] + rest.0, rest.1)
  }

  predicate ClearFree<T>(ops: seq<Op<T>>)
  {
    forall i :: 0 <= i < |ops| ==> !ops[i].ClearOp?
  }

  /** One call other than clear keeps the representation and reports what the queue reports. */
  lemma StepRefinesQueue<T>(b: Buffer<T>, q: seq<T>, op: Op<T>)
    requires Represents(b, q) && !op.ClearOp?
    ensures Step(b, op).0 == QueueStep(q, b.cap, op).0
    ensures Represents(Step(b, op).1, QueueStep(q, b.cap, op).1)
  {
    match op
    case WriteOp(x) => WriteRefinesPush(b, q, x);
    case ReadOp => ReadRefinesPop(b, q);
    case ForceWriteOp(x) => ForceWriteRefinesPushEvict(b, q, x);
  }

  /** Every clear in `ops` comes when the queue, run from `q`, is empty or full. */
  predicate ClearsWhenEmptyOrFull<T>(q: seq<T>, cap: int, ops: seq<Op<T>>)
    requires 0 < cap && |q| <= cap
    decreases |ops|
  {
    ops == [] ||
    ((ops[0].ClearOp? ==> |q| == 0 || |q| == cap) &&
     ClearsWhenEmptyOrFull(QueueStep(q, cap, ops[0]).1, cap, ops[1..]))
  }

  /**
   * First-in first-out with clears: when every clear comes on an empty or a
   * full buffer, the cursors are together at each clear, so the buffer still
   * reports what the bounded queue reports and ends up holding its contents.
   */
  lemma {:induction false} RunRefinesQueueClearingEmptyOrFull<T>(b: Buffer<T>, q: seq<T>, ops: seq<Op<T>>)
    requires Represents(b, q) && ClearsWhenEmptyOrFull(q, b.cap, ops)
    ensures Run(b, ops).0 == QueueRun(q, b.cap, ops).0
    ensures Represents(Run(b, ops).1, QueueRun(q, b.cap, ops).1)
    decreases |ops|
  {
    if ops != [] {
      if ops[0].ClearOp? {
        ClearOnEmptyOrFullRepresentsEmpty(b, q);
      } else {
        StepRefinesQueue(b, q, ops[0]);
      }
      RunRefinesQueueClearingEmptyOrFull(Step(b, ops[0]).1, QueueStep(q, b.cap, ops[0]).1, ops[1..]);
    }
  }

  /**
   * First-in first-out: on a trace without a clear, a buffer that holds `q`
   * reports the same events as the bounded queue holding `q`, and ends up
   * holding the queue's final contents.
   */
  lemma RunRefinesQueue<T>(b: Buffer<T>, q: seq<T>, ops: seq<Op<T>>)
    requires Represents(b, q) && ClearFree(ops)
    ensures Run(b, ops).0 == QueueRun(q, b.cap, ops).0
    ensures Represents(Run(b, ops).1, QueueRun(q, b.cap, ops).1)
  {
    ClearFreeClearsWhenEmptyOrFull(q, b.cap, ops);
    RunRefinesQueueClearingEmptyOrFull(b, q, ops);
  }

  /** A trace without a clear meets the clearing condition trivially. */
  lemma {:induction false} ClearFreeClearsWhenEmptyOrFull<T>(q: seq<T>, cap: int, ops: seq<Op<T>>)
    requires 0 < cap && |q| <= cap && ClearFree(ops)
    ensures ClearsWhenEmptyOrFull(q, cap, ops)
    decreases |ops|
  {
    if ops != [] {
      assert ClearFree(ops[1..]) by {
        forall i | 0 <= i < |ops| - 1 ensures !ops[1..][i].ClearOp? {
          assert ops[1..][i] == ops[i + 1];
        }
      }
      ClearFreeClearsWhenEmptyOrFull(QueueStep(q, cap, ops[0]).1, cap, ops[1..]);
    }
  }

  /** A call other than clear keeps the write cursor `size` cells after the read cursor. */
  lemma StepKeepsCursorRelation<T>(b: Buffer<T>, op: Op<T>)
    requires Valid(b) && CursorRelation(b) && !op.ClearOp?
    ensures CursorRelation(Step(b, op).1)
  {
    var b' := Step(b, op).1;
    ModSmall(b.head + b.size, b.cap);
    ModSmall(b'.head + b'.size, b.cap);
  }

  /** On a trace without a clear the cursor relation holds throughout. */
  lemma {:induction false} CursorRelationInvariant<T>(b: Buffer<T>, ops: seq<Op<T>>)
    requires Valid(b) && CursorRelation(b) && ClearFree(ops)
    ensures CursorRelation(Run(b, ops).1)
    decreases |ops|
  {
    if ops != [] {
      StepKeepsCursorRelation(b, ops[0]);
      assert ClearFree(ops[1..]) by {
        forall i | 0 <= i < |ops| - 1 ensures !ops[1..][i].ClearOp? {
          assert ops[1..][i] == ops[i + 1];
        }
      }
      CursorRelationInvariant(Step(b, ops[0]).1, ops[1..]);
    }
  }

  function Writes<T>(xs: seq<T>): (ops: seq<Op<T>>)
    ensures |ops| == |xs|
  {
    seq(|xs|, i requires 0 <= i < |xs| => WriteOp(xs[i]))
  }

  function Reads<T>(n: nat): (ops: seq<Op<T>>)
    ensures |ops| == n
  {
    seq(n, _ => ReadOp)
  }

  /** The events a run of successful reads of `xs` reports. */
  function ReturnedAll<T>(xs: seq<T>): (es: seq<Event<T>>)
    ensures |es| == |xs|
  {
    seq(|xs|, i requires 0 <= i < |xs| => Returned(Some(xs[i])))
  }

  lemma {:induction false} QueueRunAppend<T>(q: seq<T>, cap: int, a: seq<Op<T>>, c: seq<Op<T>>)
    requires 0 < cap && |q| <= cap
    ensures QueueRun(q, cap, a + c).0
            == QueueRun(q, cap, a).0 + QueueRun(QueueRun(q, cap, a).1, cap, c).0
    ensures QueueRun(q, cap, a + c).1 == QueueRun(QueueRun(q, cap, a).1, cap, c).1
    decreases |a|
  {
    if a == [] {
      assert a + c == c;
    } else {
      var first := QueueStep(q, cap, a[0]);
      assert (a + c)[0] == a[0];
      assert (a + c)[1..] == a[1..] + c;
      QueueRunAppend(first.1, cap, a[1..], c);
      var mid := QueueRun(first.1, cap, a[1..]);
      assert QueueRun(q, cap, a).0 == [first.0] + mid.0;
      assert QueueRun(q, cap, a + c).0 == [first.0] + QueueRun(first.1, cap, a[1..] + c).0;
      assert [first.0] + (mid.0 + QueueRun(mid.1, cap, c).0) == [first.0] + mid.0 + QueueRun(mid.1, cap, c).0;
    }
  }

  lemma {:induction false} QueueRunWrites<T>(q: seq<T>, cap: int, xs: seq<T>)
    requires 0 < cap && |q| + |xs| <= cap
    ensures QueueRun(q, cap, Writes(xs)).0 == seq(|xs|, _ => Done)
    ensures QueueRun(q, cap, Writes(xs)).1 == q + xs
    decreases |xs|
  {
    if xs == [] {
      assert q + xs == q;
    } else {
      assert Writes(xs)[0] == WriteOp(xs[0]);
      assert Writes(xs)[1..] == Writes(xs[1..]);
      QueueRunWrites(q + [xs[0]], cap, xs[1..]);
      assert q + [xs[0]] + xs[1..] == q + xs;
    }
  }

  lemma {:induction false} QueueRunReads<T>(q: seq<T>, cap: int, n: nat)
    requires 0 < cap && n <= |q| <= cap
    ensures QueueRun(q, cap, Reads(n)).0 == ReturnedAll(q[..n])
    ensures QueueRun(q, cap, Reads(n)).1 == q[n..]
    decreases n
  {
    if n > 0 {
      assert Reads<T>(n)[1..] == Reads(n - 1);
      QueueRunReads(q[1..], cap, n - 1);
      assert q[1..][n - 1..] == q[n..];
      assert [Returned(Some(q[0]))] + ReturnedAll(q[1..][..n - 1]) == ReturnedAll(q[..n]);
    }
  }

  /**
   * Writing up to `cap` items into a fresh buffer and then reading as many
   * times returns them in the order written and leaves the buffer empty.
   */
  lemma FillThenDrain<T>(cap: int, xs: seq<T>)
    requires 0 < cap < ArrayLengthLimit && |xs| <= cap
    ensures Run(New<T>(cap), Writes(xs) + Reads(|xs|)).0
            == seq(|xs|, _ => Done) + ReturnedAll(xs)
    ensures IsEmpty(Run(New<T>(cap), Writes(xs) + Reads(|xs|)).1)
  {
    var ops := Writes(xs) + Reads(|xs|);
    NewRepresentsEmpty<T>(cap);
    assert ClearFree(ops) by {
      forall i | 0 <= i < |ops| ensures !ops[i].ClearOp? {
        if i < |xs| { assert ops[i] == Writes(xs)[i]; } else { assert ops[i] == ReadOp; }
      }
    }
    RunRefinesQueue(New<T>(cap), [], ops);
    QueueRunAppend([], cap, Writes(xs), Reads(|xs|));
    QueueRunWrites([], cap, xs);
    assert [] + xs == xs;
    QueueRunReads(xs, cap, |xs|);
    assert xs[..|xs|] == xs;
  }

  /**
   * Successful writes lay items out from a fixed anchor cell, whatever the
   * read cursor says: if the cells from `start` hold `q` and the write cursor
   * is just past them, writing `xs` (while they fit) leaves `q + xs` there and
   * the read cursor untouched.
   */
  lemma {:induction false} WritesAppendAt<T>(b: Buffer<T>, start: int, q: seq<T>, xs: seq<T>)
    requires Valid(b) && 0 <= start < b.cap
    requires b.size == |q| && Placed(b.slots, start, q)
    requires b.tail == (start + |q|) % b.cap
    requires |q| + |xs| <= b.cap
    ensures Run(b, Writes(xs)).0 == seq(|xs|, _ => Done)
    ensures Placed(Run(b, Writes(xs)).1.slots, start, q + xs)
    ensures Run(b, Writes(xs)).1.size == |q + xs|
    ensures Run(b, Writes(xs)).1.head == b.head
    decreases |xs|
  {
    if xs == [] {
      assert q + xs == q;
    } else {
      WriteAppendsAt(b, start, q, xs[0]);
      assert Writes(xs)[0] == WriteOp(xs[0]);
      assert Writes(xs)[1..] == Writes(xs[1..]);
      WritesAppendAt(Write(b, xs[0]).value, start, q + [xs[0]], xs[1..]);
      assert q + [xs[0]] + xs[1..] == q + xs;
    }
  }

  /**
   * After a clear, writes resume at the old write cursor: the items sit from
   * there onward while the read cursor stays where it was.
   */
  lemma ClearThenWrites<T>(b: Buffer<T>, xs: seq<T>)
    requires Valid(b) && |xs| <= b.cap
    ensures Placed(Run(Clear(b), Writes(xs)).1.slots, b.tail, xs)
    ensures Run(Clear(b), Writes(xs)).1.size == |xs|
    ensures Run(Clear(b), Writes(xs)).1.head == b.head
  {
    ClearPlacesAtTail(b);
    ModSmall(b.tail, b.cap);
    WritesAppendAt(Clear(b), b.tail, [], xs);
    assert [] + xs == xs;
  }

  /** On an empty buffer whose cursors coincide, a read returns the item just written. */
  lemma WriteThenRead<T>(b: Buffer<T>, x: T)
    requires Valid(b) && IsEmpty(b) && b.head == b.tail
    ensures Run(b, [WriteOp(x), ReadOp]).0 == [Done, Returned(Some(x))]
    ensures IsEmpty(Run(b, [WriteOp(x), ReadOp]).1)
    ensures Run(b, [WriteOp(x), ReadOp]).1.head == Run(b, [WriteOp(x), ReadOp]).1.tail
  {
    var ops := [WriteOp(x), ReadOp];
    var w := Write(b, x).value;
    var r := Read(w).value;
    assert Step(b, WriteOp(x)) == (Done, w);
    assert Step(w, ReadOp) == (Returned(Some(x)), r.1);
    assert ops[1..] == [ReadOp] && ops[1..][1..] == [];
    assert ops[1..][0] == ReadOp;
    assert Run(r.1, ops[1..][1..]) == ([], r.1);
    assert [Returned(Some(x))] + [] == [Returned(Some(x))];
    assert Run(w, ops[1..]) == ([Returned(Some(x))], r.1);
  }

  /**
   * After a clear that leaves the cursors apart, the write lands at the old
   * write cursor while the read serves the null at the old read cursor, so
   * the item just written is not the item read.
   */
  lemma WriteThenReadAfterClearApart<T>(b: Buffer<T>, x: T)
    requires Valid(b) && b.head != b.tail
    ensures Run(Clear(b), [WriteOp(x), ReadOp]).0 == [Done, Returned(None)]
    ensures IsEmpty(Run(Clear(b), [WriteOp(x), ReadOp]).1)
    ensures Run(Clear(b), [WriteOp(x), ReadOp]).1.slots[b.tail] == Some(x)
  {
    var c := Clear(b);
    var ops := [WriteOp(x), ReadOp];
    var w := Write(c, x).value;
    var r := Read(w).value;
    var e: Event<T> := Returned(None);
    assert w.slots[w.head] == None;
    assert Step(c, WriteOp(x)) == (Done, w);
    assert Step(w, ReadOp) == (e, r.1);
    assert ops[1..] == [ReadOp] && ops[1..][1..] == [];
    assert ops[1..][0] == ReadOp;
    assert Run(r.1, ops[1..][1..]) == ([], r.1);
    assert [e] + [] == [e];
    assert Run(w, ops[1..]) == ([e], r.1);
  }

  /** Running `a` then `c` is running `a + c`. */
  lemma {:induction false} RunAppend<T>(b: Buffer<T>, a: seq<Op<T>>, c: seq<Op<T>>)
    requires Valid(b)
    ensures Run(b, a + c).0 == Run(b, a).0 + Run(Run(b, a).1, c).0
    ensures Run(b, a + c).1 == Run(Run(b, a).1, c).1
    decreases |a|
  {
    if a == [] {
      assert a + c == c;
    } else {
      var first := Step(b, a[0]);
      assert (a + c)[0] == a[0];
      assert (a + c)[1..] == a[1..] + c;
      RunAppend(first.1, a[1..], c);
      var mid := Run(first.1, a[1..]);
      assert Run(b, a).0 == [first.0] + mid.0;
      assert Run(b, a + c).0 == [first.0] + Run(first.1, a[1..] + c).0;
      assert [first.0] + (mid.0 + Run(mid.1, c).0) == [first.0] + mid.0 + Run(mid.1, c).0;
    }
  }

  /** Running a single call is taking one step. */
  lemma RunSingle<T>(b: Buffer<T>, op: Op<T>)
    requires Valid(b)
    ensures Run(b, [op]) == ([Step(b, op).0], Step(b, op).1)
  {
    assert [op][1..] == [];
    assert [Step(b, op).0] + [] == [Step(b, op).0];
  }

  /**
   * Strict writes into a fresh buffer fill the cells from 0 in the order
   * written; the remaining cells stay null.
   */
  lemma FillFreshLaysOutInOrder<T>(cap: int, xs: seq<T>)
    requires 0 < cap < ArrayLengthLimit && |xs| <= cap
    ensures Run(New<T>(cap), Writes(xs)).1.slots == Somes(xs) + Nones(cap - |xs|)
  {
    var b := New<T>(cap);
    NewRepresentsEmpty<T>(cap);
    WritesAppendAt(b, 0, [], xs);
    assert [] + xs == xs;
    var slots := Run(b, Writes(xs)).1.slots;
    forall k | 0 <= k < cap ensures RotFrom(slots, 0)[k] == slots[k] {
      ModSmall(k, cap);
    }
    assert RotFrom(slots, 0) == slots;
  }
}
